=== FILE: README.md ===
# Podcast generation core, modelled in Dafny

A model of the logic inside a small Next.js podcast app. The app turns a text
prompt into spoken audio and shows a navigation sidebar. Five modules cover it:

- `Strings` (`strings.dfy`) holds the JavaScript text primitives the app relies on:
  - the `\s` whitespace class and `trim()`;
  - `split` on a whitespace-run separator;
  - `join`;
  - the decimal text of a number.

  It also defines `Content(s)`, the non-whitespace characters of `s` in order. Many properties are stated in terms of it.
- `Chunker` (`chunker.dfy`) models `chunkTextAtSentence`. It replaces runs of line feeds with one space and splits after `.`, `!` or `?` followed by whitespace. It then packs sentences greedily into chunks of at most `max` characters and hard-splits any sentence longer than `max`.
- `Truncate` (`truncate.dfy`) models `truncateText`, the prompt preview cut to 200 words.
- `Generation` (`generation.dfy`) models `generatePodcast` and `handleUploadAudio`.
  - `generatePodcast`: one speech request per chunk with a `Processing i/n...` progress text, then the merged `audio/mpeg` file is uploaded and its URL resolved.
  - `handleUploadAudio`: uploads a file the user picked.
  - The speech service, the uploader and the URL resolver are function parameters. Each call returns a value or throws.
  - Each method returns the final UI state plus the ordered trace of outside calls and toasts.
- `Sidebar` (`sidebar.dfy`) models which navigation links a user sees and when a link is highlighted.

Where the code and its surrounding documentation disagree, the model follows the code:

- Chunks can be empty. A hard-split slice is pushed after `trim()` with no emptiness check, so a whitespace slice becomes `""` (`Chunker.WhitespaceSlicesBecomeEmptyChunks`). Only the two flush sites guard against empty chunks.
- Only the empty prompt is rejected. A blank prompt passes the `!voicePrompt` guard. If it is at most 4000 characters long, it yields no chunks and no speech requests, and an empty file is uploaded (`Generation.BlankPromptUploadsEmptyAudio`). A longer blank prompt can yield empty chunks from its whitespace slices, and each is sent as a speech request with input `""`: 4001 spaces give two such requests (`Generation.LongBlankPromptSpeaksEmptyChunks`).
- The chunk bound counts characters, although a comment (line 17) calls it words.
- The sidebar's comment (line 21) mentions a last name, but only the first name is compared.
- The overflow test charges a separator even when the current chunk is empty. The model keeps that test as written (`Chunker.Step`, `Chunker.FullSentenceStartsChunk`). It makes no observable difference, because flushing an empty chunk pushes nothing.

## Model

| member | source | states |
|---|---|---|
| Strings.IsWs | components/GeneratePodcast.tsx:34 | the characters `\s` matches and `trim()` removes: the ECMAScript WhiteSpace and LineTerminator code points (tab, line feed, vertical tab, form feed, carriage return, space, no-break space, ogham space mark, the spaces U+2000 to U+200A, line and paragraph separator, narrow no-break space, medium mathematical space, ideographic space, byte order mark) |
| Strings.Trim | components/GeneratePodcast.tsx:43-44 | `trim()`: the result is no longer than the text and starts and ends with non-whitespace; `Strings.TrimParts` shows the text is the result with whitespace on either side |
| Strings.TrimParts | components/GeneratePodcast.tsx:43-44 | the text is some whitespace, then its trimmed form, then some whitespace |
| Strings.SplitRuns | components/GeneratePodcast.tsx:34 | `split` at maximal whitespace runs (after `.`, `!` or `?` for sentences) always yields at least one piece; `Strings.SplitRunsRebuild` and `Strings.SplitRunsMaximal` state what the pieces are |
| Strings.Join | components/GeneratePodcast.tsx:86 | `join(' ')` of no words is the empty string; `Strings.SplitJoinedWords` is its inverse |
| Strings.Concat | components/GeneratePodcast.tsx:136 | the parts one after the other, as the `Blob` holds them; a single part is itself, and `Strings.ConcatAppend` splits a concatenation anywhere |
| Strings.TrimContent | components/GeneratePodcast.tsx:43-44 | `trim()` removes only whitespace: the trimmed text has the same non-whitespace content |
| Strings.InfixSurvivesTrim | components/GeneratePodcast.tsx:43-44 | trimming never cuts into a piece that starts and ends with non-whitespace, so such a piece is still inside the trimmed text |
| Strings.SplitRunsRebuild | components/GeneratePodcast.tsx:34 | the pieces are the text between successive separator matches: each match is a non-empty whitespace run (maximal, by `Strings.SplitRunsMaximal`), there is one fewer match than pieces, and putting the matches back between the pieces rebuilds the text exactly |
| Strings.SplitRunsMaximal | components/GeneratePodcast.tsx:34 | every separator is a maximal whitespace run, as greedy `\s+` takes it: each piece after the first starts with a non-whitespace character, except a last piece left empty by trailing whitespace |
| Strings.SplitRunsContent | components/GeneratePodcast.tsx:34 | splitting at whitespace runs drops only the separators: the pieces together keep the whole non-whitespace content |
| Strings.SplitRunsNoInnerSeparator | components/GeneratePodcast.tsx:34 | no piece contains a position where the separator could still match (the split is at every match) |
| Strings.SplitSentencesEndInPunct | components/GeneratePodcast.tsx:34 | with the look-behind `(?<=[.!?])`, every sentence but the last ends in `.`, `!` or `?` |
| Strings.SplitWordsOfTrimmed | components/GeneratePodcast.tsx:83 | the words of a non-blank trimmed text are non-empty and free of whitespace |
| Strings.SplitJoinedWords | components/GeneratePodcast.tsx:83-86 | round trip: words joined by single spaces split back into the same words |
| Strings.Decimal | components/GeneratePodcast.tsx:126 | the text `${n}` gives a natural number: non-empty, all digits, and without a leading zero when `n > 0`; `Strings.DecimalRoundTrip` shows it reads back as `n` |
| Strings.DecimalRoundTrip | components/GeneratePodcast.tsx:126 | the decimal text printed for a number reads back as that number |
| Chunker.CollapseNewlines | components/GeneratePodcast.tsx:33 | no line feed is left, the text never grows, and a text without line feeds is unchanged |
| Chunker.CollapsesRunToOneSpace | components/GeneratePodcast.tsx:33 | a maximal run of line feeds, however long, becomes exactly one space, and the text on both sides is normalised independently |
| Chunker.CollapseAppend | components/GeneratePodcast.tsx:33 | the replacement works piece by piece wherever no run of line feeds is cut in two |
| Chunker.Sentences | components/GeneratePodcast.tsx:32-34 | there is always at least one sentence (an empty text has the one sentence `""`) |
| Chunker.CollapseNewlinesContent | components/GeneratePodcast.tsx:33 | replacing line-feed runs keeps the non-whitespace content |
| Chunker.SentencesContent | components/GeneratePodcast.tsx:32-34 | the sentences hold all of the text's non-whitespace content, in order |
| Chunker.Slices | components/GeneratePodcast.tsx:51-56 | the slices of a long sentence cover it exactly, in order, each 1 to `max` characters long |
| Chunker.SlicesCount | components/GeneratePodcast.tsx:51-56 | there are ⌈len/max⌉ slices, and every slice except the last is exactly `max` long |
| Chunker.HardSplit | components/GeneratePodcast.tsx:49-56 | the hard-split chunks of a long sentence; their shape and content are stated by `Chunker.HardSplitShape` |
| Chunker.HardSplitShape | components/GeneratePodcast.tsx:49-56 | one chunk per slice, each the trimmed slice and at most `max` long, together keeping the sentence's content |
| Chunker.Flush | components/GeneratePodcast.tsx:43-45 | the trimmed current chunk is pushed exactly when it is not blank, and nothing else changes |
| Chunker.Step | components/GeneratePodcast.tsx:39-68 | chunks are only appended. When the current chunk, a separator and the sentence fit in `max`, nothing is pushed and the sentence becomes the current chunk or is appended to it after one space. Otherwise the current chunk is flushed, and a sentence of at most `max` becomes the new current chunk, while a longer one adds its hard-split chunks and leaves the current chunk empty |
| Chunker.FullSentenceStartsChunk | components/GeneratePodcast.tsx:41-59 | a sentence of exactly `max` characters takes the overflow branch, flushes, and becomes the new current chunk whole |
| Chunker.PackAll | components/GeneratePodcast.tsx:39-69 | the loop over all sentences; stated by `Chunker.PackAllJoins` and the lemmas below |
| Chunker.PackAllJoins | components/GeneratePodcast.tsx:39-68 | packing is greedy: while the pending text, a separator and the next non-empty sentences joined by single spaces fit in `max`, nothing is pushed and they all go into the current chunk |
| Chunker.OneChunkWhenItFits | components/GeneratePodcast.tsx:32-76 | a text whose sentences are all non-empty and, joined by single spaces, are shorter than `max`, yields that join as its only chunk, trimmed (none if blank) |
| Chunker.ChunkTextDefault | components/GeneratePodcast.tsx:27-30 | with the default bound of 3500, every chunk is at most 3500 characters long and trimmed |
| Chunker.ChunkTextAtSentence | components/GeneratePodcast.tsx:27-77 | empty input gives no chunks |
| Chunker.ChunksBoundedAndTrimmed | components/GeneratePodcast.tsx:41-74 | every chunk is at most `max` characters long and has no whitespace at either end |
| Chunker.ChunksPreserveContent | components/GeneratePodcast.tsx:32-74 | the chunks, concatenated, hold exactly the non-whitespace characters of the text, in order |
| Chunker.NoEmptyChunkWithoutHardSplit | components/GeneratePodcast.tsx:43-44 | when no sentence is longer than `max`, no chunk is empty |
| Chunker.BlankTextChunks | components/GeneratePodcast.tsx:43-73 | a blank text yields only empty chunks, and none if it is not longer than `max` |
| Chunker.LongBlankSentence | components/GeneratePodcast.tsx:49-56 | a run of more than `max` and at most `2·max` spaces yields exactly two empty chunks |
| Chunker.WhitespaceSlicesBecomeEmptyChunks | components/GeneratePodcast.tsx:49-56 | `"   "` with bound 2 yields two empty chunks |
| Chunker.FittingSentenceStaysWhole | components/GeneratePodcast.tsx:39-68 | a non-blank sentence of at most `max` characters appears, trimmed, whole inside one chunk |
| Truncate.Words | components/GeneratePodcast.tsx:83 | `text.trim().split(/\s+/)` always has at least one word (a text that trims to `""` has the one word `""`) |
| Truncate.SliceEnd | components/GeneratePodcast.tsx:86 | `slice(0, end)` keeps `end` elements when `0 <= end <= len`, `len + end` for a negative `end` that does not reach past the front, all `len` when `end > len`, and none when `len + end < 0` |
| Truncate.TruncateText | components/GeneratePodcast.tsx:82-88 | a text of at most `maxWords` words comes back unchanged and untrimmed; a longer one ends in `...` |
| Truncate.TruncatedWords | components/GeneratePodcast.tsx:82-88 | a text over the limit becomes its first kept words joined by single spaces, with `...` on the last one; its words are exactly those |
| Truncate.NegativeLimitDropsFromEnd | components/GeneratePodcast.tsx:86 | a negative limit drops that many words from the end instead |
| Truncate.TruncateToNothing | components/GeneratePodcast.tsx:86-87 | a limit of zero always gives `...` |
| Truncate.TruncateIdempotent | components/GeneratePodcast.tsx:82-88 | for a non-negative limit, truncating twice equals truncating once |
| Truncate.TruncateWordBound | components/GeneratePodcast.tsx:82-88 | for a positive limit, the result has at most `maxWords` words |
| Generation.ProgressLabel | components/GeneratePodcast.tsx:126 | the text `Processing i/n...`; `Generation.ProgressLabelsDiffer` shows it names the chunk |
| Generation.MergedFile | components/GeneratePodcast.tsx:136-138 | one `audio/mpeg` file named `podcast-<token>.mp3` holding all parts in order; `Generation.MergedInChunkOrder` states the order |
| Generation.Chunks | components/GeneratePodcast.tsx:119 | the prompt chunked with the bound 4000; `Generation.WholePromptIsSpoken` states what the chunks hold |
| Generation.SynthCalls | components/GeneratePodcast.tsx:124-131 | the first `k` speech requests, one per chunk in order, each for the chosen voice and that chunk, shown while `Processing i/n...` with `i` counting from 1 |
| Generation.FileName | components/GeneratePodcast.tsx:137 | `podcast-${uuid}.mp3`, with the random token as a parameter |
| Generation.PublishCalls | components/GeneratePodcast.tsx:141-146 | the upload is always made, and the URL lookup of the storage id follows only when the upload returned one |
| Generation.Verdict | components/GeneratePodcast.tsx:153-162 | the closing toast: the success title when the URL was resolved, otherwise the error title marked destructive (lines 217-222 do the same for uploads) |
| Generation.Reset | components/GeneratePodcast.tsx:107-109 | the state after the reset, once `isGenerating` is false again: no audio, no progress text, everything else as before; the `catch` block (lines 163-164) leaves it as is |
| Generation.Settle | components/GeneratePodcast.tsx:143-149 | how far publishing got is committed: nothing if the upload threw; the storage id alone if the URL lookup threw; otherwise the storage id, the URL as audio and the prompt truncated to 200 words (the same commits as lines 207-213) |
| Generation.FirstFailure | components/GeneratePodcast.tsx:124-133 | the first chunk whose speech request throws: all before it succeed |
| Generation.Responses | components/GeneratePodcast.tsx:128-132 | the audio parts are the answers to the requests, one per chunk, in chunk order |
| Generation.SynthesizeAll | components/GeneratePodcast.tsx:124-133 | the loop succeeds iff no request throws. It makes the requests in chunk order, each with progress `Processing i/n...`, and stops right after the first failing one |
| Generation.Publish | components/GeneratePodcast.tsx:141-147 | nothing is stored iff the upload throws; a storage id is the upload's answer; a URL exists only when the lookup of that id returned it |
| Generation.PublishFile | components/GeneratePodcast.tsx:141-147 | uploads, then looks up the URL only once a storage id exists |
| Generation.GeneratePodcast | components/GeneratePodcast.tsx:106-166 | every path ends with `isGenerating` false and no progress text. An empty prompt only raises a toast. A failing request or call stops the run with the error toast, keeping the storage id if one was set and leaving audio `''`. On success, audio is the URL and the prompt is truncated to 200 words. Each case gives the exact call trace |
| Generation.WholePromptIsSpoken | components/GeneratePodcast.tsx:119-133 | the requests ask for the chunks in order, each at most 4000 characters, together covering the prompt's whole content |
| Generation.MergedInChunkOrder | components/GeneratePodcast.tsx:132-138 | the merged file holds each response right after the earlier ones |
| Generation.ProgressLabelsDiffer | components/GeneratePodcast.tsx:126 | different chunks show different progress texts |
| Generation.BlankPromptUploadsEmptyAudio | components/GeneratePodcast.tsx:110-138 | a blank non-empty prompt of at most 4000 characters yields no chunks and no requests, and an empty file is published |
| Generation.LongBlankPromptSpeaksEmptyChunks | components/GeneratePodcast.tsx:49-56 | a prompt of 4001 spaces gives the chunks `["", ""]`, so two speech requests with input `""` are made |
| Generation.HandleUploadAudio | components/GeneratePodcast.tsx:186-225 | the first picked file is uploaded under its own name and type. `isUploading` ends false, and the generator's flag and progress text are untouched. No file means no call and no toast. The storage id, URL and truncated prompt are kept as far as publishing got |
| Sidebar.IsCreator | components/LeftSidebar.tsx:23 | a user is a creator when the first name is `Oriental Musings` or `Daily Briefing`; `Sidebar.LastNameIgnored` shows nothing else counts |
| Sidebar.WithoutRoute | components/LeftSidebar.tsx:27 | drops exactly the links with the route, keeps every other link with its multiplicity, in original order |
| Sidebar.FilteredLinks | components/LeftSidebar.tsx:22-28 | the links shown, characterised by `Sidebar.FilteredLinksSpec` |
| Sidebar.FilteredLinksSpec | components/LeftSidebar.tsx:22-28 | a creator sees all links; anyone else, a missing user included, sees all but `/create-podcast`, in order |
| Sidebar.LastNameIgnored | components/LeftSidebar.tsx:21-23 | whether a user is a creator does not depend on the last name at all; no user is not a creator; first and last name `Eastcast` is not a creator |
| Sidebar.IsActive | components/LeftSidebar.tsx:52-53 | the highlight rule, characterised by `Sidebar.IsActiveByIndex` |
| Sidebar.IsActiveByIndex | components/LeftSidebar.tsx:52-53 | a link is active iff the path is the route, or the route followed by `/` and possibly more |
| Sidebar.ActiveBelowRoute | components/LeftSidebar.tsx:52-53 | a route is active on every path below it |
| Sidebar.NotActiveOnSibling | components/LeftSidebar.tsx:52-53 | a route is not active on a path that continues it with a character other than `/` |
| Sidebar.HomeActiveOnlyOnRoot | components/LeftSidebar.tsx:52-53 | `/` is active exactly on `/` and on paths starting with `//` |
| Sidebar.ActiveExamples | components/LeftSidebar.tsx:52-53 | `/podcast` is not active on `/podcasts` but is on `/podcast/abc`; `/` is not active on `/podcasts` |

## Left out

- Characters: a Dafny `char` is a Unicode scalar value, while JavaScript lengths count UTF-16 code units. Text with characters outside the Basic Multilingual Plane (two code units each) is not modelled. The same holds for lone surrogates.
- Chunker.ChunkTextAtSentence requires `max >= 1`. For a bound below 1 the source's slicing loop never ends on a non-empty sentence, so there is nothing to model.
- Generation.GeneratePodcast models `getAudioUrl` returning null (passed through by `audioUrl!`) as no different from returning a string. The resolver returns a string or throws.
- Generation.GeneratePodcast models an empty upload result as the upload throwing. Reading `uploaded[0]` of an empty result would throw.
- Generation.HandleUploadAudio assumes reading the picked file's contents (`file.arrayBuffer()`) succeeds. A read failure would reach the same `catch` as an upload failure.
- The `if (!file)` check in `handleUploadAudio` is not modelled: a non-empty file list always has a first file.
- React state batching is not modelled. Each setter is an immediate assignment, and only the final state is stated, plus the progress text shown during each request.
- Concurrent or re-entrant invocations are not modelled.
- `e.preventDefault()` is not modelled.
- Console logging is not modelled.
- The random UUID is the parameter `token`.
- The services are not modelled themselves. Speech synthesis, upload and URL lookup are the parameters `synthesize`, `upload` and `resolve`. The call number is passed to `synthesize`, so repeated identical requests may be answered differently.
- JSX rendering, the toggle between AI and manual mode, the audio-duration callback and the sidebar's sign-in/sign-out buttons are not modelled. They are display, floating point and authentication calls.
- `PodcastCard` is not part of this model: it only awaits a view-count mutation and navigates.
- The build configuration `next.config.mjs` is not part of this model.

=== FILE: chunker.dfy ===
/**
 * The sentence chunker `chunkTextAtSentence` of the podcast generator: it
 * normalises line breaks, splits the text into sentences and packs the
 * sentences greedily into chunks of at most `max` characters, hard-splitting
 * any sentence that alone is longer than `max`.
 */
module Chunker {
  import opened Strings

  /** The state of the packing loop: the chunks pushed so far and
      `currentChunk`. */
  datatype Packer = Packer(chunks: seq<string>, current: string)

  /** The bound used when the caller gives none (a count of characters). */
  const DefaultLimit: int := 3500

  // ---------------------------------------------------------------------------
  // Normalising and splitting
  // ---------------------------------------------------------------------------

  /** The number of line feeds `t` starts with. */
  function NewlineRun(t: string): (n: nat)
    ensures n <= |t|
    ensures forall i :: 0 <= i < n ==> t[i] == '\n'
    ensures n < |t| ==> t[n] != '\n'
  {
    if |t| > 0 && t[0] == '\n' then 1 + NewlineRun(t[1..]) else 0
  }

  /** `t.replace(/\n+/g, ' ')`: every maximal run of line feeds becomes one
      space; nothing else changes. */
  function CollapseNewlines(t: string): (r: string)
    ensures |r| <= |t|
    ensures forall i :: 0 <= i < |r| ==> r[i] != '\n'
    ensures (forall i :: 0 <= i < |t| ==> t[i] != '\n') ==> r == t
    decreases |t|
  {
    if |t| == 0 then []
    else if t[0] == '\n' then " " + CollapseNewlines(t[NewlineRun(t)..])
    else [t[0]] + CollapseNewlines(t[1..])
  }

  /** Where `a` ends and `b` begins, no run of line feeds is cut in two. */
  predicate NoRunAcross(a: string, b: string) {
    |a| == 0 || |b| == 0 || a[|a| - 1] != '\n' || b[0] != '\n'
  }

  lemma {:induction false} NewlineRunAppend(a: string, b: string)
    ensures NewlineRun(a + b) == if NewlineRun(a) < |a| then NewlineRun(a) else |a| + NewlineRun(b)
    decreases |a|
  {
    if |a| == 0 {
      assert a + b == b;
    } else {
      assert (a + b)[0] == a[0];
      if a[0] == '\n' {
        NewlineRunAppend(a[1..], b);
        assert (a + b)[1..] == a[1..] + b;
      }
    }
  }

  /** The replacement works piece by piece, as long as no run of line feeds
      straddles the cut. */
  lemma {:induction false} CollapseAppend(a: string, b: string)
    requires NoRunAcross(a, b)
    ensures CollapseNewlines(a + b) == CollapseNewlines(a) + CollapseNewlines(b)
    decreases |a|
  {
    if |a| == 0 {
      assert a + b == b;
    } else if a[0] != '\n' {
      PlainHead(a, b);
      CollapseAppend(a[1..], b);
      Regroup([a[0]], CollapseNewlines(a[1..]), CollapseNewlines(b));
    } else if NewlineRun(a) < |a| {
      var m := NewlineRun(a);
      RunHead(a, b);
      CollapseAppend(a[m..], b);
      Regroup(" ", CollapseNewlines(a[m..]), CollapseNewlines(b));
    } else {
      RunThenText(a, b);
      RunThenText(a, []);
      assert a + [] == a;
    }
  }

  lemma Regroup(x: string, y: string, z: string)
    ensures x + (y + z) == (x + y) + z
  {
  }

  lemma PlainHead(a: string, b: string)
    requires |a| > 0 && a[0] != '\n'
    ensures CollapseNewlines(a + b) == [a[0]] + CollapseNewlines(a[1..] + b)
    ensures CollapseNewlines(a) == [a[0]] + CollapseNewlines(a[1..])
  {
    assert (a + b)[0] == a[0];
    assert (a + b)[1..] == a[1..] + b;
  }

  lemma RunHead(a: string, b: string)
    requires |a| > 0 && a[0] == '\n' && NewlineRun(a) < |a|
    ensures CollapseNewlines(a + b) == " " + CollapseNewlines(a[NewlineRun(a)..] + b)
    ensures CollapseNewlines(a) == " " + CollapseNewlines(a[NewlineRun(a)..])
  {
    NewlineRunAppend(a, b);
    assert (a + b)[0] == a[0];
    assert (a + b)[NewlineRun(a)..] == a[NewlineRun(a)..] + b;
  }

  /** A run of line feeds followed by text that does not continue the run. */
  lemma RunThenText(nl: string, b: string)
    requires |nl| > 0 && forall i :: 0 <= i < |nl| ==> nl[i] == '\n'
    requires |b| == 0 || b[0] != '\n'
    ensures CollapseNewlines(nl + b) == " " + CollapseNewlines(b)
  {
    assert NewlineRun(nl) == |nl|;
    NewlineRunAppend(nl, b);
    assert (nl + b)[0] == '\n';
    assert (nl + b)[|nl|..] == b;
  }

  /** A maximal run of line feeds, however long, becomes exactly one space:
      `"a\n\nb"` turns into `"a b"`, not `"ab"`. */
  lemma CollapsesRunToOneSpace(a: string, nl: string, b: string)
    requires |nl| > 0 && forall i :: 0 <= i < |nl| ==> nl[i] == '\n'
    requires |a| == 0 || a[|a| - 1] != '\n'
    requires |b| == 0 || b[0] != '\n'
    ensures CollapseNewlines(a + nl + b) == CollapseNewlines(a) + " " + CollapseNewlines(b)
  {
    assert a + nl + b == a + (nl + b);
    CollapseAppend(a, nl + b);
    RunThenText(nl, b);
    Regroup(CollapseNewlines(a), " ", CollapseNewlines(b));
  }

  /** The normalisation only touches whitespace. */
  lemma {:induction false} CollapseNewlinesContent(t: string)
    ensures Content(CollapseNewlines(t)) == Content(t)
    decreases |t|
  {
    if |t| > 0 {
      if t[0] == '\n' {
        var n := NewlineRun(t);
        CollapseNewlinesContent(t[n..]);
        ContentAppend(" ", CollapseNewlines(t[n..]));
        assert Content(" ") == [] by {
          assert Content(" ") == Keep(' ') + Content([]);
        }
        ContentOfCut(t, 0, n);
        assert t[..0] == [];
      } else {
        CollapseNewlinesContent(t[1..]);
        ContentAppend([t[0]], CollapseNewlines(t[1..]));
        ContentAppend([t[0]], t[1..]);
        assert t == [t[0]] + t[1..];
      }
    }
  }

  /** The sentences of `text`: line feeds normalised, then
      `split(/(?<=[.!?])\s+/)`. */
  function Sentences(text: string): (r: seq<string>)
    ensures |r| >= 1
    ensures text == [] ==> r == [""]
  {
    SplitRuns(CollapseNewlines(text), true)
  }

  /** Only whitespace is lost between the text and its sentences. */
  lemma SentencesContent(text: string)
    ensures Content(Concat(Sentences(text))) == Content(text)
  {
    SplitRunsContent(CollapseNewlines(text), true);
    CollapseNewlinesContent(text);
  }

  // ---------------------------------------------------------------------------
  // Hard split of an over-long sentence
  // ---------------------------------------------------------------------------

  /** `sentence.slice(start, start + max)` for `start` = 0, max, 2·max, … while
      `start < sentence.length`: consecutive pieces that cover `s` exactly, all
      `max` long but the last, which is between 1 and `max` long; there are
      ⌈|s| / max⌉ of them. */
  function Slices(s: string, max: int): (r: seq<string>)
    requires max >= 1
    ensures Concat(r) == s
    ensures forall k :: 0 <= k < |r| ==> 0 < |r[k]| <= max
    decreases |s|
  {
    if |s| == 0 then []
    else if |s| <= max then [s]
    else
      var rest := Slices(s[max..], max);
      assert Concat([s[..max]] + rest) == s[..max] + Concat(rest);
      [s[..max]] + rest
  }

  /** How many slices there are, and that only the last may be short. */
  lemma {:induction false} SlicesCount(s: string, max: int)
    requires max >= 1
    ensures |s| == 0 ==> |Slices(s, max)| == 0
    ensures |s| > 0 ==> (|Slices(s, max)| - 1) * max < |s| <= |Slices(s, max)| * max
    ensures forall k :: 0 <= k < |Slices(s, max)| - 1 ==> |Slices(s, max)[k]| == max
    decreases |s|
  {
    if |s| > max {
      var rest := Slices(s[max..], max);
      SlicesCount(s[max..], max);
      assert Slices(s, max) == [s[..max]] + rest;
      var n := |rest|;
      assert (n - 1) * max < |s| - max <= n * max;
      assert (n + 1) * max == n * max + max;
      assert (n - 1) * max == n * max - max;
    }
  }

  /** Each element trimmed (`.trim()` applied to every piece). */
  function TrimEach(ss: seq<string>): (r: seq<string>)
    ensures |r| == |ss|
    ensures forall k :: 0 <= k < |r| ==> r[k] == Trim(ss[k])
  {
    if |ss| == 0 then [] else [Trim(ss[0])] + TrimEach(ss[1..])
  }

  /** Lines 49-56: the trimmed slices of an over-long sentence. */
  function HardSplit(s: string, max: int): (r: seq<string>)
    requires max >= 1
  {
    TrimEach(Slices(s, max))
  }

  /** A long sentence yields one chunk per slice, each at most `max` long and
      each the trimmed text of its slice; a slice of whitespace gives `""`. */
  lemma HardSplitShape(s: string, max: int)
    requires max >= 1
    ensures |HardSplit(s, max)| == |Slices(s, max)|
    ensures forall k :: 0 <= k < |HardSplit(s, max)| ==>
      |HardSplit(s, max)[k]| <= max && HardSplit(s, max)[k] == Trim(Slices(s, max)[k])
    ensures Content(Concat(HardSplit(s, max))) == Content(s)
  {
    TrimEachContent(Slices(s, max));
  }

  lemma {:induction false} TrimEachContent(ss: seq<string>)
    ensures Content(Concat(TrimEach(ss))) == Content(Concat(ss))
  {
    if |ss| > 0 {
      TrimEachContent(ss[1..]);
      var t := TrimEach(ss);
      assert t == [Trim(ss[0])] + TrimEach(ss[1..]);
      assert Concat(t) == Trim(ss[0]) + Concat(TrimEach(ss[1..]));
      ContentAppend(Trim(ss[0]), Concat(TrimEach(ss[1..])));
      ContentAppend(ss[0], Concat(ss[1..]));
      TrimContent(ss[0]);
    }
  }

  // ---------------------------------------------------------------------------
  // The packing loop
  // ---------------------------------------------------------------------------

  /** Lines 43-45 and 72-74: push the trimmed current chunk unless it is
      blank. */
  function Flush(chunks: seq<string>, current: string): (r: seq<string>)
    ensures r == chunks || (r == chunks + [Trim(current)] && Trim(current) != [])
    ensures Trim(current) != [] ==> r == chunks + [Trim(current)]
  {
    if Trim(current) != [] then chunks + [Trim(current)] else chunks
  }

  /** One iteration of the `for (const sentence of sentences)` loop, lines
      40-68. The overflow test charges one separator even when the current
      chunk is empty. */
  function Step(p: Packer, s: string, max: int): (r: Packer)
    requires max >= 1
    ensures p.chunks <= r.chunks
    ensures |s| <= max ==> r.current == s || r.current == p.current + " " + s
    ensures |s| <= max ==> r.chunks == p.chunks || r.chunks == Flush(p.chunks, p.current)
    ensures |p.current| + |s| + 1 <= max ==>
      r.chunks == p.chunks && r.current == (if |p.current| == 0 then s else p.current + " " + s)
    ensures |p.current| + |s| + 1 > max && |s| <= max ==> r == Packer(Flush(p.chunks, p.current), s)
    ensures |s| > max ==> r.current == [] && r.chunks == Flush(p.chunks, p.current) + HardSplit(s, max)
  {
    if |p.current| + |s| + 1 > max then
      var flushed := Flush(p.chunks, p.current);
      if |s| > max then Packer(flushed + HardSplit(s, max), [])
      else Packer(flushed, s)
    else if |p.current| == 0 then Packer(p.chunks, s)
    else Packer(p.chunks, p.current + " " + s)
  }

  /** A sentence of exactly `max` characters takes the overflow branch even
      when nothing is pending, yet is kept whole as the new current chunk. */
  lemma FullSentenceStartsChunk(p: Packer, s: string, max: int)
    requires max >= 1 && |s| == max
    ensures Step(p, s, max) == Packer(Flush(p.chunks, p.current), s)
  {
  }

  /** The whole loop over `ss`, starting from `p`. */
  function PackAll(p: Packer, ss: seq<string>, max: int): (r: Packer)
    requires max >= 1
    decreases |ss|
  {
    if |ss| == 0 then p else PackAll(Step(p, ss[0], max), ss[1..], max)
  }

  /** `chunkTextAtSentence(text, max)`. The source needs `max >= 1`: with a
      smaller bound the slicing loop of lines 52-56 never ends on a non-empty
      sentence. */
  function ChunkTextAtSentence(text: string, max: int): (r: seq<string>)
    requires max >= 1
    ensures text == [] ==> r == []
  {
    var done := PackAll(Packer([], []), Sentences(text), max);
    Flush(done.chunks, done.current)
  }

  /** `chunkTextAtSentence(text)` with the bound left at its default. */
  function ChunkTextDefault(text: string): (r: seq<string>)
    ensures forall c :: c in r ==> |c| <= DefaultLimit && IsTrimmed(c)
  {
    ChunksBoundedAndTrimmed(text, DefaultLimit);
    ChunkTextAtSentence(text, DefaultLimit)
  }

  // ---------------------------------------------------------------------------
  // Packing is greedy
  // ---------------------------------------------------------------------------

  /** As long as they fit, sentences keep going into the current chunk: when
      the pending text, a separator and the non-empty sentences joined by
      single spaces stay within `max`, nothing is pushed and the current
      chunk becomes that join. */
  lemma {:induction false} PackAllJoins(p: Packer, ss: seq<string>, max: int)
    requires max >= 1 && |ss| > 0
    requires forall k :: 0 <= k < |ss| ==> |ss[k]| > 0
    requires |p.current| + |Join(ss, " ")| + 1 <= max
    ensures PackAll(p, ss, max)
      == Packer(p.chunks, if |p.current| == 0 then Join(ss, " ") else p.current + " " + Join(ss, " "))
    decreases |ss|
  {
    var q := Step(p, ss[0], max);
    if |ss| > 1 {
      var rest := Join(ss[1..], " ");
      assert Join(ss, " ") == ss[0] + " " + rest;
      assert |q.current| > 0;
      PackAllJoins(q, ss[1..], max);
      if |p.current| > 0 {
        assert q.current + " " + rest == p.current + " " + (ss[0] + " " + rest);
      }
    }
  }

  /** A text whose sentences, joined by single spaces, are shorter than
      `max` comes back as a single chunk (none if it is blank). */
  lemma OneChunkWhenItFits(text: string, max: int)
    requires max >= 1
    requires forall k :: 0 <= k < |Sentences(text)| ==> |Sentences(text)[k]| > 0
    requires |Join(Sentences(text), " ")| < max
    ensures ChunkTextAtSentence(text, max) == Flush([], Join(Sentences(text), " "))
  {
    PackAllJoins(Packer([], []), Sentences(text), max);
  }

  // ---------------------------------------------------------------------------
  // Chunks are bounded and trimmed
  // ---------------------------------------------------------------------------

  predicate Bounded(p: Packer, max: int) {
    |p.current| <= max && forall c :: c in p.chunks ==> |c| <= max && IsTrimmed(c)
  }

  lemma StepBounded(p: Packer, s: string, max: int)
    requires max >= 1 && Bounded(p, max)
    ensures Bounded(Step(p, s, max), max)
  {
    var r := Step(p, s, max);
    var f := Flush(p.chunks, p.current);
    assert forall c :: c in f ==> |c| <= max && IsTrimmed(c);
    if |s| > max {
      HardSplitShape(s, max);
      var h := HardSplit(s, max);
      assert forall c :: c in h ==> |c| <= max && IsTrimmed(c);
      assert r.chunks == f + h;
    }
  }

  lemma {:induction false} PackAllBounded(p: Packer, ss: seq<string>, max: int)
    requires max >= 1 && Bounded(p, max)
    ensures Bounded(PackAll(p, ss, max), max)
    decreases |ss|
  {
    if |ss| > 0 {
      StepBounded(p, ss[0], max);
      PackAllBounded(Step(p, ss[0], max), ss[1..], max);
    }
  }

  /** Every chunk is at most `max` characters long and has no whitespace at
      either end. */
  lemma ChunksBoundedAndTrimmed(text: string, max: int)
    requires max >= 1
    ensures forall c :: c in ChunkTextAtSentence(text, max) ==> |c| <= max && IsTrimmed(c)
  {
    PackAllBounded(Packer([], []), Sentences(text), max);
  }

  // ---------------------------------------------------------------------------
  // Content is preserved in order
  // ---------------------------------------------------------------------------

  /** The text the packer holds: all pushed chunks, then the current one. */
  function Held(p: Packer): string {
    Concat(p.chunks) + p.current
  }

  lemma FlushContent(chunks: seq<string>, current: string)
    ensures Content(Concat(Flush(chunks, current))) == Content(Concat(chunks) + current)
  {
    ContentAppend(Concat(chunks), current);
    TrimContent(current);
    if Trim(current) != [] {
      ConcatAppend(chunks, [Trim(current)]);
      ContentAppend(Concat(chunks), Trim(current));
    } else {
      assert Content(current) == [];
    }
  }

  lemma StepContent(p: Packer, s: string, max: int)
    requires max >= 1
    ensures Content(Held(Step(p, s, max))) == Content(Held(p)) + Content(s)
  {
    var ch, cur := Concat(p.chunks), p.current;
    if |cur| + |s| + 1 > max {
      FlushContent(p.chunks, cur);
      if |s| > max {
        LongStepContent(Flush(p.chunks, cur), ch + cur, s, max);
      } else {
        ContentAppend(Concat(Flush(p.chunks, cur)), s);
      }
    } else if |cur| == 0 {
      assert Held(p) == ch;
      ContentAppend(ch, s);
    } else {
      JoinedContent(ch, cur, s);
    }
  }

  lemma LongStepContent(f: seq<string>, held: string, s: string, max: int)
    requires max >= 1
    requires Content(Concat(f)) == Content(held)
    ensures Content(Concat(f + HardSplit(s, max)) + []) == Content(held) + Content(s)
  {
    var h := HardSplit(s, max);
    HardSplitShape(s, max);
    ConcatAppend(f, h);
    assert Concat(f + h) + [] == Concat(f) + Concat(h);
    ContentAppend(Concat(f), Concat(h));
  }

  lemma JoinedContent(ch: string, cur: string, s: string)
    ensures Content(ch + (cur + " " + s)) == Content(ch + cur) + Content(s)
  {
    assert Content(" ") == [] by {
      assert Content(" ") == Keep(' ') + Content([]);
    }
    assert ch + (cur + " " + s) == (ch + cur) + " " + s;
    ContentAroundBlank(ch + cur, " ", s);
  }

  lemma {:induction false} PackAllContent(p: Packer, ss: seq<string>, max: int)
    requires max >= 1
    ensures Content(Held(PackAll(p, ss, max))) == Content(Held(p)) + Content(Concat(ss))
    decreases |ss|
  {
    if |ss| > 0 {
      var q := Step(p, ss[0], max);
      StepContent(p, ss[0], max);
      PackAllContent(q, ss[1..], max);
      assert Concat(ss) == ss[0] + Concat(ss[1..]);
      ContentAppend(ss[0], Concat(ss[1..]));
    }
  }

  /** Only whitespace is ever dropped: the chunks hold the non-whitespace
      characters of the text, all of them and in their original order. */
  lemma ChunksPreserveContent(text: string, max: int)
    requires max >= 1
    ensures Content(Concat(ChunkTextAtSentence(text, max))) == Content(text)
  {
    var start := Packer([], []);
    var done := PackAll(start, Sentences(text), max);
    PackAllContent(start, Sentences(text), max);
    assert Held(start) == [];
    SentencesContent(text);
    FlushContent(done.chunks, done.current);
  }

  // ---------------------------------------------------------------------------
  // Empty chunks
  // ---------------------------------------------------------------------------

  lemma {:induction false} PackAllNoEmptyChunk(p: Packer, ss: seq<string>, max: int)
    requires max >= 1
    requires forall s :: s in ss ==> |s| <= max
    requires forall c :: c in p.chunks ==> c != []
    ensures forall c :: c in PackAll(p, ss, max).chunks ==> c != []
    decreases |ss|
  {
    if |ss| > 0 {
      var q := Step(p, ss[0], max);
      assert forall c :: c in q.chunks ==> c != [];
      PackAllNoEmptyChunk(q, ss[1..], max);
    }
  }

  /** The two flush sites never push an empty chunk: when no sentence needs a
      hard split, no chunk is empty. */
  lemma NoEmptyChunkWithoutHardSplit(text: string, max: int)
    requires max >= 1
    requires forall s :: s in Sentences(text) ==> |s| <= max
    ensures forall c :: c in ChunkTextAtSentence(text, max) ==> c != []
  {
    PackAllNoEmptyChunk(Packer([], []), Sentences(text), max);
  }

  lemma {:induction false} BlankConcat(cs: seq<string>)
    requires Content(Concat(cs)) == []
    ensures forall c :: c in cs ==> Content(c) == []
  {
    if |cs| > 0 {
      ContentAppend(cs[0], Concat(cs[1..]));
      BlankConcat(cs[1..]);
    }
  }

  lemma BlankTrimmed(c: string)
    requires IsTrimmed(c) && Content(c) == []
    ensures c == []
  {
    ContentEmptyIffAllWs(c);
  }

  /** Trimming a blank string leaves nothing. */
  lemma BlankTrim(s: string)
    requires Content(s) == []
    ensures Trim(s) == []
  {
    TrimContent(s);
    BlankTrimmed(Trim(s));
  }

  /** A text without any non-whitespace character yields only empty chunks,
      and none at all when it is not longer than `max`. */
  lemma BlankTextChunks(text: string, max: int)
    requires max >= 1
    requires Content(text) == []
    ensures forall c :: c in ChunkTextAtSentence(text, max) ==> c == []
    ensures |text| <= max ==> ChunkTextAtSentence(text, max) == []
  {
    var r := ChunkTextAtSentence(text, max);
    ChunksPreserveContent(text, max);
    ChunksBoundedAndTrimmed(text, max);
    BlankConcat(r);
    forall c | c in r ensures c == [] {
      BlankTrimmed(c);
    }
    if |text| <= max {
      SplitRunsShorter(CollapseNewlines(text), true);
      NoEmptyChunkWithoutHardSplit(text, max);
      if r != [] {
        assert r[0] in r;
      }
    }
  }

  lemma {:induction false} SplitRunsShorter(t: string, afterPunct: bool)
    ensures forall p :: p in SplitRuns(t, afterPunct) ==> |p| <= |t|
    decreases |t|
  {
    var q := FirstRunStart(t, 0, afterPunct);
    if q < |t| {
      SplitRunsShorter(t[RunEnd(t, q)..], afterPunct);
    }
  }

  /** `n` spaces. */
  function Spaces(n: nat): (r: string)
    ensures |r| == n && forall i :: 0 <= i < n ==> r[i] == ' '
  {
    seq(n, _ => ' ')
  }

  /** A run of spaces is blank. */
  lemma SpacesBlank(t: string)
    requires forall i :: 0 <= i < |t| ==> t[i] == ' '
    ensures Trim(t) == []
  {
    ContentEmptyIffAllWs(t);
    BlankTrim(t);
  }

  /** A run of spaces longer than `max` but not than `2 * max` is one
      sentence, hard-split into two whitespace slices, and both are pushed as
      empty chunks. */
  lemma LongBlankSentence(n: nat, max: int)
    requires max >= 1 && max < n <= 2 * max
    ensures ChunkTextAtSentence(Spaces(n), max) == ["", ""]
  {
    var t := Spaces(n);
    assert CollapseNewlines(t) == t;
    var q := FirstRunStart(t, 0, true);
    forall j | 0 <= j < |t| ensures !RunStart(t, j, true) {
      if j > 0 {
        assert t[j - 1] == ' ';
      }
    }
    assert q == |t|;
    assert Sentences(t) == [t];
    assert t[max..] == Spaces(n - max);
    assert Slices(t, max) == [t[..max], t[max..]];
    SpacesBlank(t[..max]);
    SpacesBlank(t[max..]);
    assert HardSplit(t, max) == ["", ""];
    assert Trim([]) == [];
    var p := Step(Packer([], []), t, max);
    assert p == Packer(["", ""], []);
    assert PackAll(Packer([], []), [t], max) == p;
  }

  /** Three spaces with a bound of two give two empty chunks. */
  lemma WhitespaceSlicesBecomeEmptyChunks()
    ensures ChunkTextAtSentence("   ", 2) == ["", ""]
  {
    assert Spaces(3) == "   ";
    LongBlankSentence(3, 2);
  }

  // ---------------------------------------------------------------------------
  // A sentence that fits is never divided
  // ---------------------------------------------------------------------------

  /** `x` cannot lose a character to trimming. */
  predicate Solid(x: string) {
    |x| > 0 && !IsWs(x[0]) && !IsWs(x[|x| - 1])
  }

  /** Some pushed chunk contains `x` whole. */
  ghost predicate InSomeChunk(x: string, cs: seq<string>) {
    exists c :: c in cs && IsInfix(x, c)
  }

  ghost predicate Holds(p: Packer, x: string) {
    InSomeChunk(x, p.chunks) || IsInfix(x, p.current)
  }

  lemma FlushKeeps(chunks: seq<string>, current: string, x: string)
    requires Solid(x) && IsInfix(x, current)
    ensures InSomeChunk(x, Flush(chunks, current))
  {
    InfixSurvivesTrim(x, current);
    var f := Flush(chunks, current);
    assert Trim(current) != [];
    assert Trim(current) == f[|f| - 1];
  }

  lemma StepKeeps(p: Packer, s: string, max: int, x: string)
    requires max >= 1 && Solid(x) && Holds(p, x)
    ensures Holds(Step(p, s, max), x)
  {
    var r := Step(p, s, max);
    if InSomeChunk(x, p.chunks) {
      var c :| c in p.chunks && IsInfix(x, c);
      var i :| 0 <= i < |p.chunks| && p.chunks[i] == c;
      assert r.chunks[i] == c;
    } else if |p.current| + |s| + 1 > max {
      FlushKeeps(p.chunks, p.current, x);
      var c :| c in Flush(p.chunks, p.current) && IsInfix(x, c);
      assert c in r.chunks;
    } else {
      assert |p.current| > 0;
      InfixOfAppend(x, p.current, " " + s);
      assert r.current == p.current + (" " + s);
    }
  }

  lemma {:induction false} PackAllKeeps(p: Packer, ss: seq<string>, max: int, x: string)
    requires max >= 1 && Solid(x) && Holds(p, x)
    ensures Holds(PackAll(p, ss, max), x)
    decreases |ss|
  {
    if |ss| > 0 {
      StepKeeps(p, ss[0], max, x);
      PackAllKeeps(Step(p, ss[0], max), ss[1..], max, x);
    }
  }

  lemma StepPlaces(p: Packer, s: string, max: int)
    requires max >= 1 && |s| <= max
    ensures IsInfix(Trim(s), Step(p, s, max).current)
  {
    var r := Step(p, s, max);
    TrimIsInfix(s);
    if r.current == s {
      assert IsInfix(s, s) by {
        assert InfixAt(s, s, 0);
      }
    } else {
      InfixAtEnd(s, p.current + " ");
    }
    InfixTransitive(Trim(s), s, r.current);
  }

  lemma {:induction false} PackAllPlaces(p: Packer, ss: seq<string>, max: int, i: nat)
    requires max >= 1 && i < |ss|
    requires |ss[i]| <= max && Trim(ss[i]) != []
    ensures Holds(PackAll(p, ss, max), Trim(ss[i]))
    decreases |ss|
  {
    var q := Step(p, ss[0], max);
    if i == 0 {
      StepPlaces(p, ss[0], max);
      PackAllKeeps(q, ss[1..], max, Trim(ss[0]));
    } else {
      PackAllPlaces(q, ss[1..], max, i - 1);
    }
  }

  /** A sentence that fits within `max` (and is not blank) ends up whole
      inside a single chunk: it is appended to the current chunk or starts a
      new one, and is never cut. */
  lemma FittingSentenceStaysWhole(text: string, max: int, i: nat)
    requires max >= 1
    requires i < |Sentences(text)|
    requires |Sentences(text)[i]| <= max && Trim(Sentences(text)[i]) != []
    ensures exists c :: c in ChunkTextAtSentence(text, max) && IsInfix(Trim(Sentences(text)[i]), c)
  {
    var x := Trim(Sentences(text)[i]);
    var done := PackAll(Packer([], []), Sentences(text), max);
    PackAllPlaces(Packer([], []), Sentences(text), max, i);
    if InSomeChunk(x, done.chunks) {
      var c :| c in done.chunks && IsInfix(x, c);
      assert c in ChunkTextAtSentence(text, max);
    } else {
      FlushKeeps(done.chunks, done.current, x);
    }
  }
}

=== FILE: generation.dfy ===
/**
 * The two ways a podcast gets its audio: `generatePodcast`, which chunks the
 * prompt, synthesises every chunk, merges the audio, uploads it and resolves
 * its public URL; and `handleUploadAudio`, which uploads a file the user
 * picked. The speech service, the file store and the URL resolver are
 * parameters: each call either returns a value or throws.
 */
module Generation {
  import opened Strings
  import Chunker
  import Truncate

  type Byte = b: int | 0 <= b < 256
  type Bytes = seq<Byte>

  /** The result of an awaited call: its value, or an exception. */
  datatype Outcome<T> = Returned(value: T) | Threw

  /** What the speech action is asked for: `{ voice, input }`. */
  datatype SpeechRequest = SpeechRequest(voice: string, input: string)

  /** A `File` handed to the uploader. */
  datatype AudioFile = AudioFile(name: string, mimeType: string, bytes: Bytes)

  /** The state the component and its parent keep: `isGenerating`,
      `isUploading`, `progressText`, and the parent's `audio`,
      `audioStorageId` and `voicePrompt`. */
  datatype UiState = UiState(
    isGenerating: bool,
    isUploading: bool,
    progressText: string,
    audio: string,
    audioStorageId: string,
    voicePrompt: string)

  /** What the outside world observes, in order: a speech request together
      with the progress text shown while it runs, an upload, a URL lookup, a
      toast. */
  datatype Event =
    | Synthesize(request: SpeechRequest, progress: string)
    | Upload(file: AudioFile)
    | ResolveUrl(storageId: string)
    | Toast(title: string, destructive: bool)

  /** The chunk size the generator asks for. */
  const ChunkLimit: int := 4000
  const MergedType: string := "audio/mpeg"

  const PromptMissing: string := "Please provide a prompt to generate a podcast"
  const GenerateDone: string := "Podcast generated successfully"
  const GenerateFailed: string := "Error creating a podcast"
  const UploadDone: string := "Podcast uploaded successfully"
  const UploadFailed: string := "Error uploading audio"

  /** `Processing ${i}/${n}...`. */
  function ProgressLabel(i: nat, n: nat): string {
    "Processing " + Decimal(i) + "/" + Decimal(n) + "..."
  }

  /** `podcast-${uuid}.mp3`; the random token is a parameter. */
  function FileName(token: string): string {
    "podcast-" + token + ".mp3"
  }

  /** The chunks of a prompt. */
  function Chunks(prompt: string): (r: seq<string>) {
    Chunker.ChunkTextAtSentence(prompt, ChunkLimit)
  }

  // ---------------------------------------------------------------------------
  // The reference outcome of the synthesis loop
  // ---------------------------------------------------------------------------

  /** The speech service answers request number `i` (counting from 0). */
  predicate Spoken(synthesize: (nat, SpeechRequest) -> Outcome<Bytes>, voice: string, cs: seq<string>, i: nat)
    requires i < |cs|
  {
    synthesize(i, SpeechRequest(voice, cs[i])).Returned?
  }

  /** The first chunk, from `from` on, whose synthesis throws, or `|cs|`. */
  function FirstFailure(synthesize: (nat, SpeechRequest) -> Outcome<Bytes>, voice: string, cs: seq<string>, from: nat): (k: nat)
    requires from <= |cs|
    ensures from <= k <= |cs|
    ensures k < |cs| ==> !Spoken(synthesize, voice, cs, k)
    ensures forall i :: from <= i < k ==> Spoken(synthesize, voice, cs, i)
    decreases |cs| - from
  {
    if from == |cs| then from
    else if !Spoken(synthesize, voice, cs, from) then from
    else FirstFailure(synthesize, voice, cs, from + 1)
  }

  /** The audio the speech service returned for chunk `i`. */
  function Answer(synthesize: (nat, SpeechRequest) -> Outcome<Bytes>, voice: string, cs: seq<string>, i: nat): (b: Bytes)
    requires i < |cs| && Spoken(synthesize, voice, cs, i)
    ensures synthesize(i, SpeechRequest(voice, cs[i])) == Returned(b)
  {
    synthesize(i, SpeechRequest(voice, cs[i])).value
  }

  /** The audio of the first `k` chunks, in chunk order. */
  function Responses(synthesize: (nat, SpeechRequest) -> Outcome<Bytes>, voice: string, cs: seq<string>, k: nat): (r: seq<Bytes>)
    requires k <= |cs| && forall i :: 0 <= i < k ==> Spoken(synthesize, voice, cs, i)
    ensures |r| == k
    ensures forall i :: 0 <= i < k ==> synthesize(i, SpeechRequest(voice, cs[i])) == Returned(r[i])
  {
    seq(k, i requires 0 <= i < k && Spoken(synthesize, voice, cs, i) => Answer(synthesize, voice, cs, i))
  }

  /** The first `k` speech requests, each shown as `Processing i/n...` while
      it runs. */
  function SynthCalls(voice: string, cs: seq<string>, k: nat): (r: seq<Event>)
    requires k <= |cs|
    ensures |r| == k
  {
    seq(k, i requires 0 <= i < k => Synthesize(SpeechRequest(voice, cs[i]), ProgressLabel(i + 1, |cs|)))
  }

  /** The merged file: all parts in one `audio/mpeg` blob. */
  function MergedFile(token: string, parts: seq<Bytes>): AudioFile {
    AudioFile(FileName(token), MergedType, Concat(parts))
  }

  /** The state after the reset at lines 107-109, once `isGenerating` is
      cleared again, as every path of the generator ends by doing (lines 114,
      152, 164): no audio and no progress text. The `catch` block leaves it
      unchanged; the success path commits its results on top of it. */
  function Reset(st: UiState): UiState {
    st.(isGenerating := false, audio := [], progressText := [])
  }

  // ---------------------------------------------------------------------------
  // generatePodcast
  // ---------------------------------------------------------------------------

  /** The `for` loop of lines 124-133: one speech request per chunk, in
      order, stopping at the first that throws. Reports whether all
      succeeded, their audio, and the requests made. */
  method SynthesizeAll(voice: string, cs: seq<string>, synthesize: (nat, SpeechRequest) -> Outcome<Bytes>)
    returns (spoken: bool, parts: seq<Bytes>, trace: seq<Event>)
    ensures spoken <==> FirstFailure(synthesize, voice, cs, 0) == |cs|
    ensures spoken ==> parts == Responses(synthesize, voice, cs, |cs|) && trace == SynthCalls(voice, cs, |cs|)
    ensures !spoken ==> trace == SynthCalls(voice, cs, FirstFailure(synthesize, voice, cs, 0) + 1)
  {
    parts, trace := [], [];
    var i := 0;
    while i < |cs|
      invariant 0 <= i <= |cs|
      invariant forall j :: 0 <= j < i ==> Spoken(synthesize, voice, cs, j)
      invariant FirstFailure(synthesize, voice, cs, 0) == FirstFailure(synthesize, voice, cs, i)
      invariant parts == Responses(synthesize, voice, cs, i)
      invariant trace == SynthCalls(voice, cs, i)
    {
      trace := trace + [Synthesize(SpeechRequest(voice, cs[i]), ProgressLabel(i + 1, |cs|))];
      assert trace == SynthCalls(voice, cs, i + 1);
      var response := synthesize(i, SpeechRequest(voice, cs[i]));
      if response.Threw? {
        return false, parts, trace;
      }
      assert parts + [response.value] == Responses(synthesize, voice, cs, i + 1);
      parts := parts + [response.value];
      i := i + 1;
    }
    spoken := true;
  }

  // ---------------------------------------------------------------------------
  // Publishing: upload, then resolve the public URL
  // ---------------------------------------------------------------------------

  /** What the store and the URL resolver made of a file: nothing stored, a
      storage id without a URL, or both. */
  datatype Publication = NotStored | NoUrl(storageId: string) | Published(storageId: string, url: string)

  /** Upload `file`, then ask for the URL of the storage id it got; the first
      call that throws decides. */
  function Publish(file: AudioFile, upload: AudioFile -> Outcome<string>, resolve: string -> Outcome<string>): (p: Publication)
    ensures p.NotStored? <==> upload(file).Threw?
    ensures !p.NotStored? ==> upload(file) == Returned(p.storageId)
    ensures p.NoUrl? ==> resolve(p.storageId).Threw?
    ensures p.Published? ==> resolve(p.storageId) == Returned(p.url)
  {
    match upload(file)
    case Threw => NotStored
    case Returned(id) =>
      match resolve(id)
      case Threw => NoUrl(id)
      case Returned(url) => Published(id, url)
  }

  /** The calls publishing makes: the upload, then the URL lookup once there
      is a storage id. */
  function PublishCalls(file: AudioFile, p: Publication): seq<Event> {
    if p.NotStored? then [Upload(file)] else [Upload(file), ResolveUrl(p.storageId)]
  }

  /** The closing toast: the success title, or the destructive error title. */
  function Verdict(p: Publication, done: string, failed: string): Event {
    if p.Published? then Toast(done, false) else Toast(failed, true)
  }

  /** The parent's fields after publishing: the storage id as soon as there
      is one; the URL and the shortened prompt only once both calls
      returned. */
  function Settle(st: UiState, p: Publication): UiState {
    match p
    case NotStored => st
    case NoUrl(id) => st.(audioStorageId := id)
    case Published(id, url) =>
      st.(audioStorageId := id, audio := url,
          voicePrompt := Truncate.TruncateText(st.voicePrompt, Truncate.PreviewWords))
  }

  /** Lines 141-147 and 203-209: `startUpload`, then `getAudioUrl`. */
  method PublishFile(file: AudioFile, upload: AudioFile -> Outcome<string>, resolve: string -> Outcome<string>)
    returns (p: Publication, trace: seq<Event>)
    ensures p == Publish(file, upload, resolve)
    ensures trace == PublishCalls(file, p)
  {
    trace := [Upload(file)];
    var uploaded := upload(file);
    if uploaded.Threw? {
      return NotStored, trace;
    }
    var id := uploaded.value;
    trace := trace + [ResolveUrl(id)];
    var url := resolve(id);
    if url.Threw? {
      return NoUrl(id), trace;
    }
    p := Published(id, url.value);
  }

  // ---------------------------------------------------------------------------
  // generatePodcast
  // ---------------------------------------------------------------------------

  /** `generatePodcast` (lines 106-166). Whatever happens, it ends with
      `isGenerating` false, no progress text, and the upload flag untouched.
      An empty prompt only raises a toast. Otherwise the first awaited call
      that throws decides: a failing speech request ends it after that
      request; past the loop, the merged audio is published, and the storage
      id, URL and shortened prompt are kept as far as publishing got. The
      audio is reset at the start, so it stays empty unless a URL arrives. */
  method GeneratePodcast(
    st: UiState, voice: string, token: string,
    synthesize: (nat, SpeechRequest) -> Outcome<Bytes>,
    upload: AudioFile -> Outcome<string>,
    resolve: string -> Outcome<string>)
    returns (r: UiState, trace: seq<Event>)
    ensures !r.isGenerating && r.progressText == [] && r.isUploading == st.isUploading
    ensures st.voicePrompt == [] ==> r == Reset(st) && trace == [Toast(PromptMissing, false)]
    ensures st.voicePrompt != [] ==>
      var cs := Chunks(st.voicePrompt);
      var f := FirstFailure(synthesize, voice, cs, 0);
      f < |cs| ==>
        r == Reset(st) && trace == SynthCalls(voice, cs, f + 1) + [Toast(GenerateFailed, true)]
    ensures st.voicePrompt != [] ==>
      var cs := Chunks(st.voicePrompt);
      FirstFailure(synthesize, voice, cs, 0) == |cs| ==>
        var file := MergedFile(token, Responses(synthesize, voice, cs, |cs|));
        var p := Publish(file, upload, resolve);
        r == Settle(Reset(st), p)
        && trace == SynthCalls(voice, cs, |cs|) + PublishCalls(file, p) + [Verdict(p, GenerateDone, GenerateFailed)]
  {
    if st.voicePrompt == [] {
      return Reset(st), [Toast(PromptMissing, false)];
    }
    var cs := Chunks(st.voicePrompt);
    var spoken, parts, calls := SynthesizeAll(voice, cs, synthesize);
    if !spoken {
      return Reset(st), calls + [Toast(GenerateFailed, true)];
    }
    var file := MergedFile(token, parts);
    var p, published := PublishFile(file, upload, resolve);
    r := Settle(Reset(st), p);
    trace := calls + published + [Verdict(p, GenerateDone, GenerateFailed)];
  }

  // ---------------------------------------------------------------------------
  // Properties of the generator's reference outcome
  // ---------------------------------------------------------------------------

  /** The texts the speech service is asked to read. */
  function Inputs(events: seq<Event>): (r: seq<string>)
    ensures |r| <= |events|
  {
    if |events| == 0 then []
    else if events[0].Synthesize? then [events[0].request.input] + Inputs(events[1..])
    else Inputs(events[1..])
  }

  lemma {:induction false} InputsOfCalls(voice: string, cs: seq<string>, k: nat)
    requires k <= |cs|
    ensures Inputs(SynthCalls(voice, cs, k)) == cs[..k]
    decreases k
  {
    if k > 0 {
      var calls := SynthCalls(voice, cs, k);
      assert calls == SynthCalls(voice, cs, k - 1) + [calls[k - 1]];
      InputsAppend(SynthCalls(voice, cs, k - 1), [calls[k - 1]]);
      InputsOfCalls(voice, cs, k - 1);
      assert cs[..k] == cs[..k - 1] + [cs[k - 1]];
    }
  }

  lemma {:induction false} InputsAppend(a: seq<Event>, b: seq<Event>)
    ensures Inputs(a + b) == Inputs(a) + Inputs(b)
    decreases |a|
  {
    if |a| == 0 {
      assert a + b == b;
    } else {
      assert (a + b)[1..] == a[1..] + b;
      InputsAppend(a[1..], b);
    }
  }

  /** When every request succeeds, the speech service is asked to read the
      whole prompt: the requests carry the chunks in order, each at most
      `ChunkLimit` characters, and together they hold every non-whitespace
      character of the prompt, in order. */
  lemma WholePromptIsSpoken(prompt: string, voice: string)
    ensures var cs := Chunks(prompt);
      var asked := Inputs(SynthCalls(voice, cs, |cs|));
      asked == cs
      && Content(Concat(asked)) == Content(prompt)
      && forall c :: c in asked ==> |c| <= ChunkLimit
  {
    var cs := Chunks(prompt);
    InputsOfCalls(voice, cs, |cs|);
    assert cs[..|cs|] == cs;
    Chunker.ChunksPreserveContent(prompt, ChunkLimit);
    Chunker.ChunksBoundedAndTrimmed(prompt, ChunkLimit);
  }

  /** A prompt that is blank but not empty passes the guard, which only
      rejects `""`: when it is not longer than a chunk it yields no chunk, no
      speech request is made, and the file published is empty. */
  lemma BlankPromptUploadsEmptyAudio(
    prompt: string, voice: string, token: string,
    synthesize: (nat, SpeechRequest) -> Outcome<Bytes>)
    requires prompt != [] && Content(prompt) == [] && |prompt| <= ChunkLimit
    ensures Chunks(prompt) == []
    ensures FirstFailure(synthesize, voice, Chunks(prompt), 0) == |Chunks(prompt)|
    ensures SynthCalls(voice, Chunks(prompt), |Chunks(prompt)|) == []
    ensures MergedFile(token, Responses(synthesize, voice, Chunks(prompt), |Chunks(prompt)|)).bytes == []
  {
    Chunker.BlankTextChunks(prompt, ChunkLimit);
  }

  /** A blank prompt longer than a chunk is not caught either: 4001 spaces
      are hard-split into two whitespace slices, each trimmed to `""`, so the
      speech service is asked twice to read an empty input. */
  lemma LongBlankPromptSpeaksEmptyChunks(voice: string)
    ensures Chunks(Chunker.Spaces(ChunkLimit + 1)) == ["", ""]
    ensures SynthCalls(voice, Chunks(Chunker.Spaces(ChunkLimit + 1)), 2) == [
      Synthesize(SpeechRequest(voice, ""), ProgressLabel(1, 2)),
      Synthesize(SpeechRequest(voice, ""), ProgressLabel(2, 2))]
  {
    Chunker.LongBlankSentence(ChunkLimit + 1, ChunkLimit);
  }

  /** The merged file holds each response right after the ones before it. */
  lemma MergedInChunkOrder(synthesize: (nat, SpeechRequest) -> Outcome<Bytes>, voice: string, cs: seq<string>, k: nat)
    requires 0 < k <= |cs| && forall i :: 0 <= i < k ==> Spoken(synthesize, voice, cs, i)
    ensures Concat(Responses(synthesize, voice, cs, k))
      == Concat(Responses(synthesize, voice, cs, k - 1)) + Answer(synthesize, voice, cs, k - 1)
  {
    var all := Responses(synthesize, voice, cs, k);
    assert all == Responses(synthesize, voice, cs, k - 1) + [all[k - 1]];
    ConcatAppend(Responses(synthesize, voice, cs, k - 1), [all[k - 1]]);
  }

  /** Different chunks show different progress texts. */
  lemma ProgressLabelsDiffer(i: nat, j: nat, n: nat)
    ensures ProgressLabel(i, n) == ProgressLabel(j, n) ==> i == j
  {
    if ProgressLabel(i, n) == ProgressLabel(j, n) {
      var p, x := "Processing ", "/" + Decimal(n) + "...";
      assert ProgressLabel(i, n) == p + (Decimal(i) + x);
      assert ProgressLabel(j, n) == p + (Decimal(j) + x);
      DropPrefix(p, Decimal(i) + x, Decimal(j) + x);
      DigitsBeforeSlash(Decimal(i), Decimal(j), x, x);
      DecimalRoundTrip(i);
      DecimalRoundTrip(j);
    }
  }

  lemma DropPrefix(p: string, u: string, v: string)
    requires p + u == p + v
    ensures u == v
  {
    assert u == (p + u)[|p|..];
    assert v == (p + v)[|p|..];
  }

  /** Two digit strings each followed by a slash can only agree if the digit
      strings do. */
  lemma DigitsBeforeSlash(a: string, b: string, x: string, y: string)
    requires forall k :: 0 <= k < |a| ==> '0' <= a[k] <= '9'
    requires forall k :: 0 <= k < |b| ==> '0' <= b[k] <= '9'
    requires |x| > 0 && x[0] == '/' && |y| > 0 && y[0] == '/'
    requires a + x == b + y
    ensures a == b
  {
    var m := if |a| < |b| then |a| else |b|;
    assert (a + x)[m] == (b + y)[m];
    assert |a| == |b|;
    assert a == (a + x)[..|a|];
    assert b == (b + y)[..|b|];
  }

  // ---------------------------------------------------------------------------
  // handleUploadAudio
  // ---------------------------------------------------------------------------

  /** A file the user picked: its name, type and contents (reading the
      contents is taken to succeed). */
  datatype PickedFile = PickedFile(name: string, mimeType: string, bytes: Bytes)

  /** `handleUploadAudio` (lines 186-225): uploads the first picked file as
      is, under its own name and type. It never touches the generator's flag
      or progress text, and does not reset the audio first; it ends with
      `isUploading` false on every path. With no file picked nothing else
      happens, not even a toast. */
  method HandleUploadAudio(
    st: UiState, files: seq<PickedFile>,
    upload: AudioFile -> Outcome<string>,
    resolve: string -> Outcome<string>)
    returns (r: UiState, trace: seq<Event>)
    ensures !r.isUploading && r.isGenerating == st.isGenerating && r.progressText == st.progressText
    ensures files == [] ==> r == st.(isUploading := false) && trace == []
    ensures files != [] ==>
      var file := AudioFile(files[0].name, files[0].mimeType, files[0].bytes);
      var p := Publish(file, upload, resolve);
      r == Settle(st.(isUploading := false), p)
      && trace == PublishCalls(file, p) + [Verdict(p, UploadDone, UploadFailed)]
  {
    if |files| == 0 {
      return st.(isUploading := false), [];
    }
    var picked := files[0];
    var file := AudioFile(picked.name, picked.mimeType, picked.bytes);
    var p, published := PublishFile(file, upload, resolve);
    r := Settle(st.(isUploading := false), p);
    trace := published + [Verdict(p, UploadDone, UploadFailed)];
  }
}

=== FILE: sidebar.dfy ===
/**
 * The left sidebar's two rules: which navigation links a user sees, and
 * which link is highlighted for the current path.
 */
module Sidebar {

  datatype Option<T> = None | Some(value: T)

  /** The signed-in user, as far as the sidebar looks at it. */
  datatype User = User(firstName: Option<string>, lastName: Option<string>)

  /** An entry of `sidebarLinks`: `route`, `label` (here `caption`, as `label` is a Dafny keyword) and `imgURL`. */
  datatype Link = Link(route: string, caption: string, imgUrl: string)

  /** The route only creators see. */
  const CreateRoute: string := "/create-podcast"

  /** `user?.firstName` is one of the two creator names. Only the first name
      is compared; a missing user or first name is not a creator. */
  predicate IsCreator(user: Option<User>) {
    user.Some? && (user.value.firstName == Some("Oriental Musings") || user.value.firstName == Some("Daily Briefing"))
  }

  /** `a` is `b` with some elements left out, the rest in their order. */
  predicate IsSubsequence<T(==)>(a: seq<T>, b: seq<T>)
    decreases |b|
  {
    if |a| == 0 then true
    else if |b| == 0 then false
    else if a[0] == b[0] then IsSubsequence(a[1..], b[1..])
    else IsSubsequence(a, b[1..])
  }

  /** `links.filter((link) => link.route !== route)`: drops exactly the links
      with that route and keeps every other link, as often as it occurs and
      in its original relative order. */
  function WithoutRoute(links: seq<Link>, route: string): (r: seq<Link>)
    ensures forall l :: l in r ==> l.route != route
    ensures forall l :: multiset(r)[l] == if l.route == route then 0 else multiset(links)[l]
    ensures IsSubsequence(r, links)
  {
    if |links| == 0 then []
    else
      var rest := WithoutRoute(links[1..], route);
      assert links == [links[0]] + links[1..];
      if links[0].route == route then
        SubsequenceOfTail(rest, links);
        rest
      else
        assert ([links[0]] + rest)[1..] == rest;
        [links[0]] + rest
  }

  /** Putting one more element in front keeps a subsequence one. */
  lemma {:induction false} SubsequenceOfTail<T>(a: seq<T>, b: seq<T>)
    requires |b| > 0 && IsSubsequence(a, b[1..])
    ensures IsSubsequence(a, b)
    decreases |b|, 0
  {
    if |a| > 0 && a[0] == b[0] {
      SubsequenceDropFirst(a, b[1..]);
    }
  }

  /** Dropping the first element of a subsequence keeps it a subsequence. */
  lemma {:induction false} SubsequenceDropFirst<T>(a: seq<T>, b: seq<T>)
    requires |a| > 0 && IsSubsequence(a, b)
    ensures IsSubsequence(a[1..], b)
    decreases |b|, 1
  {
    assert |b| > 0;
    if a[0] == b[0] {
      SubsequenceOfTail(a[1..], b);
    } else {
      SubsequenceDropFirst(a, b[1..]);
      SubsequenceOfTail(a[1..], b);
    }
  }

  /** `filteredSidebarLinks` (lines 22-28). */
  function FilteredLinks(user: Option<User>, links: seq<Link>): (r: seq<Link>) {
    if IsCreator(user) then links else WithoutRoute(links, CreateRoute)
  }

  /** A creator sees every link; anyone else, a missing user included, sees
      every link except the creation page, in the original order. */
  lemma FilteredLinksSpec(user: Option<User>, links: seq<Link>)
    ensures IsCreator(user) ==> FilteredLinks(user, links) == links
    ensures !IsCreator(user) ==>
      && (forall l :: l in FilteredLinks(user, links) ==> l.route != CreateRoute)
      && (forall l :: l in links && l.route != CreateRoute ==> l in FilteredLinks(user, links))
      && IsSubsequence(FilteredLinks(user, links), links)
  {
    if !IsCreator(user) {
      var r := FilteredLinks(user, links);
      forall l | l in links && l.route != CreateRoute ensures l in r {
        assert multiset(r)[l] == multiset(links)[l];
      }
    }
  }

  /** The last name plays no part, whatever it is, and a missing user is not
      a creator; so a user whose last name is `Eastcast` but whose first name
      is not one of the two is no creator either. */
  lemma LastNameIgnored(first: Option<string>, last: Option<string>, last': Option<string>)
    ensures IsCreator(Some(User(first, last))) == IsCreator(Some(User(first, last')))
    ensures !IsCreator(None)
    ensures !IsCreator(Some(User(Some("Eastcast"), Some("Eastcast"))))
  {
  }

  /** `pathname === route || pathname.startsWith(`${route}/`)` (lines 52-53). */
  predicate IsActive(pathname: string, route: string) {
    pathname == route || route + "/" <= pathname
  }

  /** The same rule read character by character: the path is the route, or
      the route followed by a slash and possibly more. */
  lemma IsActiveByIndex(pathname: string, route: string)
    ensures IsActive(pathname, route) <==>
      pathname == route
      || (|pathname| > |route| && pathname[..|route|] == route && pathname[|route|] == '/')
  {
    if |pathname| > |route| && pathname[..|route|] == route && pathname[|route|] == '/' {
      assert pathname[..|route| + 1] == route + "/";
    }
    if route + "/" <= pathname {
      assert pathname[..|route|] == (route + "/")[..|route|];
    }
  }

  /** A route stays highlighted on every page below it. */
  lemma ActiveBelowRoute(route: string, rest: string)
    ensures IsActive(route + "/" + rest, route)
  {
  }

  /** A route is not highlighted on a sibling path that merely starts with
      the same characters. */
  lemma NotActiveOnSibling(route: string, c: char, rest: string)
    requires c != '/'
    ensures !IsActive(route + [c] + rest, route)
  {
    var p := route + [c] + rest;
    assert p[|route|] == c;
    assert (route + "/")[|route|] == '/';
  }

  /** The home route `/` is active only on `/` itself and on paths that
      start with `//`. */
  lemma HomeActiveOnlyOnRoot(pathname: string)
    ensures IsActive(pathname, "/") <==>
      pathname == "/" || (|pathname| >= 2 && pathname[0] == '/' && pathname[1] == '/')
  {
    IsActiveByIndex(pathname, "/");
    if |pathname| >= 2 && pathname[0] == '/' {
      assert pathname[..1] == "/";
    }
  }

  /** `/podcast` is not active on `/podcasts` but is on `/podcast/abc`, and
      `/` is not active on `/podcasts`. */
  lemma ActiveExamples()
    ensures !IsActive("/podcasts", "/podcast")
    ensures IsActive("/podcast/abc", "/podcast")
    ensures !IsActive("/podcasts", "/")
  {
    NotActiveOnSibling("/podcast", 's', "");
    assert "/podcast/abc" == "/podcast" + "/" + "abc";
    HomeActiveOnlyOnRoot("/podcasts");
  }
}

=== FILE: strings.dfy ===
/**
 * Text primitives shared by the podcast generation pipeline: the whitespace
 * class of ECMAScript regular expressions and `String.prototype.trim`, the
 * non-whitespace content of a string, concatenation and joining, and the
 * `String.prototype.split` behaviour for a separator that is a run of
 * whitespace.
 *
 * A Dafny `char` is a Unicode scalar value; the model only uses characters of
 * the Basic Multilingual Plane, which are never surrogates and each take one
 * UTF-16 code unit, so `|s|` is the JavaScript `s.length`.
 */
module Strings {

  /** The characters matched by `\s` and removed by `trim()`: ECMAScript
      WhiteSpace and LineTerminator code points. */
  predicate IsWs(c: char) {
    var n := c as int;
    || n == 0x09 || n == 0x0A || n == 0x0B || n == 0x0C || n == 0x0D || n == 0x20
    || n == 0xA0 || n == 0x1680 || (0x2000 <= n <= 0x200A)
    || n == 0x2028 || n == 0x2029 || n == 0x202F || n == 0x205F
    || n == 0x3000 || n == 0xFEFF
  }

  /** Sentence-ending punctuation, the class `[.!?]`. */
  predicate IsPunct(c: char) {
    c == '.' || c == '!' || c == '?'
  }

  predicate NoWs(s: string) {
    forall i :: 0 <= i < |s| ==> !IsWs(s[i])
  }

  predicate AllWs(s: string) {
    forall i :: 0 <= i < |s| ==> IsWs(s[i])
  }

  /** A string that `trim()` leaves unchanged: empty, or starting and ending
      with a non-whitespace character. */
  predicate IsTrimmed(s: string) {
    |s| == 0 || (!IsWs(s[0]) && !IsWs(s[|s| - 1]))
  }

  /** `x` occurs as a contiguous piece of `s`. */
  ghost predicate IsInfix(x: string, s: string) {
    exists k :: InfixAt(x, s, k)
  }

  /** `x` occurs in `s` starting at index `k`. */
  predicate InfixAt(x: string, s: string, k: int) {
    0 <= k <= |s| - |x| && s[k..k + |x|] == x
  }

  // ---------------------------------------------------------------------------
  // Content: the non-whitespace characters of a string, in order
  // ---------------------------------------------------------------------------

  /** The characters of `s` that are not whitespace, in their original order.
      Two strings with the same content differ only in their whitespace. */
  function Content(s: string): (r: string)
    ensures |r| <= |s|
  {
    if |s| == 0 then [] else Keep(s[0]) + Content(s[1..])
  }

  /** The content of a single character. */
  function Keep(c: char): (r: string)
    ensures |r| <= 1
  {
    if IsWs(c) then [] else [c]
  }

  lemma {:induction false} ContentAppend(a: string, b: string)
    ensures Content(a + b) == Content(a) + Content(b)
  {
    if |a| == 0 {
      assert a + b == b;
    } else {
      var c := a + b;
      assert c[0] == a[0];
      assert c[1..] == a[1..] + b;
      ContentAppend(a[1..], b);
      assert Content(c) == Keep(a[0]) + Content(a[1..] + b);
    }
  }

  lemma {:induction false} ContentEmptyIffAllWs(s: string)
    ensures Content(s) == [] <==> AllWs(s)
  {
    if |s| > 0 {
      ContentEmptyIffAllWs(s[1..]);
      assert Content(s) == Keep(s[0]) + Content(s[1..]);
    }
  }

  lemma {:induction false} ContentOfWsFree(s: string)
    requires NoWs(s)
    ensures Content(s) == s
  {
    if |s| > 0 {
      ContentOfWsFree(s[1..]);
    }
  }

  // ---------------------------------------------------------------------------
  // trim()
  // ---------------------------------------------------------------------------

  /** The number of whitespace characters `s` starts with. */
  function LeadingWs(s: string): (n: nat)
    ensures n <= |s|
    ensures forall i :: 0 <= i < n ==> IsWs(s[i])
    ensures n < |s| ==> !IsWs(s[n])
  {
    if |s| > 0 && IsWs(s[0]) then 1 + LeadingWs(s[1..]) else 0
  }

  /** The number of whitespace characters `s` ends with. */
  function TrailingWs(s: string): (n: nat)
    ensures n <= |s|
    ensures forall i :: |s| - n <= i < |s| ==> IsWs(s[i])
    ensures n < |s| ==> !IsWs(s[|s| - 1 - n])
  {
    if |s| > 0 && IsWs(s[|s| - 1]) then 1 + TrailingWs(s[..|s| - 1]) else 0
  }

  /** `String.prototype.trim`: `s` without its leading and trailing
      whitespace. */
  function Trim(s: string): (r: string)
    ensures |r| <= |s|
    ensures IsTrimmed(r)
  {
    var u := s[LeadingWs(s)..];
    u[..|u| - TrailingWs(u)]
  }

  lemma TrimOfTrimmed(s: string)
    requires IsTrimmed(s)
    ensures Trim(s) == s
  {
  }

  /** `s` is its trimmed text with whitespace on either side. */
  lemma TrimParts(s: string) returns (lead: string, trail: string)
    ensures s == lead + Trim(s) + trail
    ensures AllWs(lead) && AllWs(trail)
  {
    var a := LeadingWs(s);
    var u := s[a..];
    var b := TrailingWs(u);
    var r := u[..|u| - b];
    lead, trail := s[..a], u[|u| - b..];
    forall i | 0 <= i < |lead| ensures IsWs(lead[i]) {
      assert lead[i] == s[i];
    }
    forall i | 0 <= i < |trail| ensures IsWs(trail[i]) {
      assert trail[i] == u[|u| - b + i];
    }
    assert Trim(s) == r;
    Recompose(s, a, |u| - b);
  }

  /** Cutting `s` at `a` and its suffix at `b` gives three consecutive pieces. */
  lemma Recompose<T>(s: seq<T>, a: nat, b: nat)
    requires a <= |s| && b <= |s| - a
    ensures s == s[..a] + s[a..][..b] + s[a..][b..]
  {
    var u := s[a..];
    assert s == s[..a] + u;
    assert u == u[..b] + u[b..];
  }

  lemma TrimContent(s: string)
    ensures Content(Trim(s)) == Content(s)
  {
    var lead, trail := TrimParts(s);
    ContentEmptyIffAllWs(lead);
    ContentEmptyIffAllWs(trail);
    ContentAppend(lead, Trim(s));
    ContentAppend(lead + Trim(s), trail);
  }

  lemma TrimIsInfix(s: string)
    ensures IsInfix(Trim(s), s)
  {
    var lead, trail := TrimParts(s);
    InfixOfParts(lead, Trim(s), trail);
  }

  lemma InfixOfParts(a: string, x: string, b: string)
    ensures InfixAt(x, a + x + b, |a|)
  {
    assert (a + x + b)[|a|..|a| + |x|] == x;
  }

  /** Trimming never cuts into a piece of `s` that starts and ends with a
      non-whitespace character. */
  lemma InfixSurvivesTrim(x: string, s: string)
    requires |x| > 0 && !IsWs(x[0]) && !IsWs(x[|x| - 1])
    requires IsInfix(x, s)
    ensures IsInfix(x, Trim(s))
  {
    var lead, trail := TrimParts(s);
    InfixSurvivesStripping(x, lead, Trim(s), trail);
  }

  lemma InfixSurvivesStripping(x: string, lead: string, r: string, trail: string)
    requires |x| > 0 && !IsWs(x[0]) && !IsWs(x[|x| - 1])
    requires AllWs(lead) && AllWs(trail)
    requires IsInfix(x, lead + r + trail)
    ensures IsInfix(x, r)
  {
    var s := lead + r + trail;
    var k :| InfixAt(x, s, k);
    var e := k + |x|;
    assert s[k..e][0] == s[k];
    assert s[k..e][|x| - 1] == s[e - 1];
    PartIndex(lead, r, trail, k);
    PartIndex(lead, r, trail, e - 1);
    SliceOfMiddle(lead, r, trail, k, e);
    assert InfixAt(x, r, k - |lead|);
  }

  /** Where index `i` of `a + m + b` falls. */
  lemma PartIndex(a: string, m: string, b: string, i: int)
    requires 0 <= i < |a| + |m| + |b|
    ensures i < |a| ==> (a + m + b)[i] == a[i]
    ensures |a| <= i < |a| + |m| ==> (a + m + b)[i] == m[i - |a|]
    ensures |a| + |m| <= i ==> (a + m + b)[i] == b[i - |a| - |m|]
  {
  }

  /** A slice of `a + m + b` that lies within `m`. */
  lemma SliceOfMiddle(a: string, m: string, b: string, i: int, j: int)
    requires |a| <= i <= j <= |a| + |m|
    ensures (a + m + b)[i..j] == m[i - |a|..j - |a|]
  {
    forall n | 0 <= n < j - i ensures (a + m + b)[i..j][n] == m[i - |a|..j - |a|][n] {
      PartIndex(a, m, b, i + n);
    }
  }

  lemma InfixTransitive(x: string, y: string, z: string)
    requires IsInfix(x, y) && IsInfix(y, z)
    ensures IsInfix(x, z)
  {
    var i :| InfixAt(x, y, i);
    var j :| InfixAt(y, z, j);
    forall m | 0 <= m < |x| ensures z[j + i + m] == x[m] {
      assert z[j..j + |y|][i + m] == z[j + i + m];
      assert y[i..i + |x|][m] == y[i + m];
    }
    assert z[j + i..j + i + |x|] == x;
    assert InfixAt(x, z, j + i);
  }

  lemma InfixOfAppend(x: string, a: string, b: string)
    requires IsInfix(x, a)
    ensures IsInfix(x, a + b)
  {
    var i :| InfixAt(x, a, i);
    assert (a + b)[i..i + |x|] == a[i..i + |x|];
    assert InfixAt(x, a + b, i);
  }

  lemma InfixAtEnd(x: string, a: string)
    ensures IsInfix(x, a + x)
  {
    assert (a + x)[|a|..|a| + |x|] == x;
    assert InfixAt(x, a + x, |a|);
  }

  // ---------------------------------------------------------------------------
  // Concatenation and joining
  // ---------------------------------------------------------------------------

  /** All pieces one after the other, as `Blob` does with its parts. */
  function Concat<T>(ss: seq<seq<T>>): (r: seq<T>)
    ensures |ss| == 1 ==> r == ss[0]
  {
    if |ss| == 0 then [] else ss[0] + Concat(ss[1..])
  }

  lemma {:induction false} ConcatAppend<T>(a: seq<seq<T>>, b: seq<seq<T>>)
    ensures Concat(a + b) == Concat(a) + Concat(b)
  {
    if |a| == 0 {
      assert a + b == b;
    } else {
      assert (a + b)[1..] == a[1..] + b;
      ConcatAppend(a[1..], b);
    }
  }

  /** `Array.prototype.join(sep)`. */
  function Join(ss: seq<string>, sep: string): (r: string)
    ensures |ss| == 0 ==> r == []
  {
    if |ss| == 0 then [] else if |ss| == 1 then ss[0] else ss[0] + sep + Join(ss[1..], sep)
  }

  /** Appending a suffix to a joined list appends it to the last element. */
  lemma {:induction false} JoinExtendLast(ss: seq<string>, sep: string, tail: string)
    requires |ss| > 0
    ensures Join(ss, sep) + tail == Join(ss[..|ss| - 1] + [ss[|ss| - 1] + tail], sep)
  {
    var ss' := ss[..|ss| - 1] + [ss[|ss| - 1] + tail];
    if |ss| > 1 {
      JoinExtendLast(ss[1..], sep, tail);
      assert ss'[1..] == ss[1..][..|ss| - 2] + [ss[1..][|ss| - 2] + tail];
    }
  }

  // ---------------------------------------------------------------------------
  // split(/\s+/) and split(/(?<=[.!?])\s+/)
  // ---------------------------------------------------------------------------

  /** A separator run can start at index `q`: a whitespace character, which,
      when `afterPunct` holds, directly follows `.`, `!` or `?` (the
      look-behind `(?<=[.!?])`). */
  predicate RunStart(t: string, q: nat, afterPunct: bool) {
    q < |t| && IsWs(t[q]) && (!afterPunct || (0 < q && IsPunct(t[q - 1])))
  }

  /** The first index at or after `from` where a separator matches, or `|t|`. */
  function FirstRunStart(t: string, from: nat, afterPunct: bool): (q: nat)
    requires from <= |t|
    ensures from <= q <= |t|
    ensures q < |t| ==> RunStart(t, q, afterPunct)
    ensures forall j :: from <= j < q ==> !RunStart(t, j, afterPunct)
    decreases |t| - from
  {
    if from == |t| then |t|
    else if RunStart(t, from, afterPunct) then from
    else FirstRunStart(t, from + 1, afterPunct)
  }

  /** The end of the maximal whitespace run starting at `q` (greedy `\s+`). */
  function RunEnd(t: string, q: nat): (e: nat)
    requires q <= |t|
    ensures q <= e <= |t|
    ensures forall j :: q <= j < e ==> IsWs(t[j])
    ensures e < |t| ==> !IsWs(t[e])
    ensures q < |t| && IsWs(t[q]) ==> q < e
    decreases |t| - q
  {
    if q < |t| && IsWs(t[q]) then RunEnd(t, q + 1) else q
  }

  /** `t.split(re)` where `re` matches a maximal whitespace run (after
      punctuation when `afterPunct` holds). The separators are dropped and the
      text between them is kept; an empty `t` gives `[""]`. */
  function SplitRuns(t: string, afterPunct: bool): (r: seq<string>)
    ensures |r| >= 1
    decreases |t|
  {
    var q := FirstRunStart(t, 0, afterPunct);
    if q == |t| then [t]
    else [t[..q]] + SplitRuns(t[RunEnd(t, q)..], afterPunct)
  }

  /** `r[0] + seps[0] + r[1] + seps[1] + … + r[|r| - 1]`: pieces with the
      separators put back between them. */
  function Interleave(r: seq<string>, seps: seq<string>): (t: string)
    requires |r| >= 1 && |seps| == |r| - 1
    decreases |r|
  {
    if |r| == 1 then r[0] else r[0] + seps[0] + Interleave(r[1..], seps[1..])
  }

  /** What `split` promises: the pieces are the text between successive
      separator matches. Each match is a non-empty whitespace run, and
      putting the matches back between the pieces rebuilds the text. */
  lemma {:induction false} SplitRunsRebuild(t: string, afterPunct: bool) returns (seps: seq<string>)
    ensures |seps| == |SplitRuns(t, afterPunct)| - 1
    ensures forall k :: 0 <= k < |seps| ==> |seps[k]| > 0 && AllWs(seps[k])
    ensures t == Interleave(SplitRuns(t, afterPunct), seps)
    decreases |t|
  {
    var q := FirstRunStart(t, 0, afterPunct);
    if q == |t| {
      seps := [];
    } else {
      var e := RunEnd(t, q);
      var rest := SplitRuns(t[e..], afterPunct);
      var more := SplitRunsRebuild(t[e..], afterPunct);
      var sep := t[q..e];
      assert AllWs(sep);
      seps := [sep] + more;
      forall k | 0 <= k < |seps| ensures |seps[k]| > 0 && AllWs(seps[k]) {
        if k > 0 {
          assert seps[k] == more[k - 1];
        }
      }
      assert SplitRuns(t, afterPunct) == [t[..q]] + rest;
      InterleaveCons(t[..q], sep, rest, more);
      Split3(t, q, e);
    }
  }

  /** The separators are maximal runs, as greedy `\s+` makes them: every
      piece after the first starts with a non-whitespace character, except a
      last piece left empty by trailing whitespace. */
  lemma {:induction false} SplitRunsMaximal(t: string, afterPunct: bool)
    ensures var r := SplitRuns(t, afterPunct);
      forall k :: 1 <= k < |r| ==> (|r[k]| > 0 && !IsWs(r[k][0])) || (k == |r| - 1 && r[k] == [])
    decreases |t|
  {
    var r := SplitRuns(t, afterPunct);
    var q := FirstRunStart(t, 0, afterPunct);
    if q < |t| {
      var e := RunEnd(t, q);
      var u := t[e..];
      var rest := SplitRuns(u, afterPunct);
      assert r == [t[..q]] + rest;
      SplitRunsMaximal(u, afterPunct);
      if |u| > 0 {
        assert u[0] == t[e];
        FirstPieceStarts(u, afterPunct);
      } else {
        assert rest == [[]];
      }
      forall k | 1 <= k < |r| ensures (|r[k]| > 0 && !IsWs(r[k][0])) || (k == |r| - 1 && r[k] == []) {
        assert r[k] == rest[k - 1];
      }
    }
  }

  /** A text that starts with non-whitespace keeps that character at the
      front of its first piece. */
  lemma FirstPieceStarts(u: string, afterPunct: bool)
    requires |u| > 0 && !IsWs(u[0])
    ensures |SplitRuns(u, afterPunct)[0]| > 0 && SplitRuns(u, afterPunct)[0][0] == u[0]
  {
    var q := FirstRunStart(u, 0, afterPunct);
    assert !RunStart(u, 0, afterPunct);
    assert q > 0;
  }

  lemma InterleaveCons(x: string, sep: string, rest: seq<string>, more: seq<string>)
    requires |rest| >= 1 && |more| == |rest| - 1
    ensures Interleave([x] + rest, [sep] + more) == x + sep + Interleave(rest, more)
  {
    assert ([x] + rest)[1..] == rest;
    assert ([sep] + more)[1..] == more;
  }

  /** Splitting only drops whitespace: the pieces together hold exactly the
      content of the split text. */
  lemma {:induction false} SplitRunsContent(t: string, afterPunct: bool)
    ensures Content(Concat(SplitRuns(t, afterPunct))) == Content(t)
    decreases |t|
  {
    var q := FirstRunStart(t, 0, afterPunct);
    if q < |t| {
      var e := RunEnd(t, q);
      var rest := SplitRuns(t[e..], afterPunct);
      SplitRunsContent(t[e..], afterPunct);
      assert SplitRuns(t, afterPunct) == [t[..q]] + rest;
      assert Concat([t[..q]] + rest) == t[..q] + Concat(rest);
      ContentAppend(t[..q], Concat(rest));
      ContentOfCut(t, q, e);
    }
  }

  /** Cutting a whitespace-only stretch out of `t` does not change its content. */
  lemma ContentOfCut(t: string, q: int, e: int)
    requires 0 <= q <= e <= |t|
    requires forall j :: q <= j < e ==> IsWs(t[j])
    ensures Content(t) == Content(t[..q]) + Content(t[e..])
  {
    WsSlice(t, q, e);
    ContentEmptyIffAllWs(t[q..e]);
    Split3(t, q, e);
    ContentAroundBlank(t[..q], t[q..e], t[e..]);
  }

  lemma ContentAroundBlank(a: string, w: string, b: string)
    requires Content(w) == []
    ensures Content(a + w + b) == Content(a) + Content(b)
  {
    ContentAppend(a + w, b);
    ContentAppend(a, w);
    assert Content(a) + Content(w) == Content(a);
  }

  lemma WsSlice(t: string, q: int, e: int)
    requires 0 <= q <= e <= |t|
    requires forall j :: q <= j < e ==> IsWs(t[j])
    ensures AllWs(t[q..e])
  {
    forall i | 0 <= i < e - q ensures IsWs(t[q..e][i]) {
      assert t[q..e][i] == t[q + i];
    }
  }

  lemma Split3<T>(t: seq<T>, q: int, e: int)
    requires 0 <= q <= e <= |t|
    ensures t == t[..q] + t[q..e] + t[e..]
  {
  }

  /** No piece contains a point where the separator could have matched. */
  lemma {:induction false} SplitRunsNoInnerSeparator(t: string, afterPunct: bool)
    ensures forall p, j :: p in SplitRuns(t, afterPunct) && 0 <= j < |p| ==> !RunStart(p, j, afterPunct)
    decreases |t|
  {
    var q := FirstRunStart(t, 0, afterPunct);
    if q < |t| {
      var e := RunEnd(t, q);
      SplitRunsNoInnerSeparator(t[e..], afterPunct);
      assert SplitRuns(t, afterPunct) == [t[..q]] + SplitRuns(t[e..], afterPunct);
      forall j | 0 <= j < q ensures !RunStart(t[..q], j, afterPunct) {
        RunStartOfPrefix(t, q, j, afterPunct);
      }
    } else {
      assert SplitRuns(t, afterPunct) == [t];
    }
  }

  lemma RunStartOfPrefix(t: string, q: int, j: int, afterPunct: bool)
    requires 0 <= j < q <= |t|
    ensures RunStart(t[..q], j, afterPunct) ==> RunStart(t, j, afterPunct)
  {
    assert t[..q][j] == t[j];
    if j > 0 {
      assert t[..q][j - 1] == t[j - 1];
    }
  }

  predicate EndsInPunct(p: string) {
    |p| > 0 && IsPunct(p[|p| - 1])
  }

  /** With the look-behind, every piece but the last ends in `.`, `!` or `?`. */
  lemma {:induction false} SplitSentencesEndInPunct(t: string)
    ensures forall i :: 0 <= i < |SplitRuns(t, true)| - 1 ==> EndsInPunct(SplitRuns(t, true)[i])
    decreases |t|
  {
    var r := SplitRuns(t, true);
    var q := FirstRunStart(t, 0, true);
    if q < |t| {
      var e := RunEnd(t, q);
      var rest := SplitRuns(t[e..], true);
      SplitSentencesEndInPunct(t[e..]);
      assert r == [t[..q]] + rest;
      assert t[..q][q - 1] == t[q - 1];
      forall i | 1 <= i < |r| - 1 ensures EndsInPunct(r[i]) {
        assert r[i] == rest[i - 1];
      }
    }
  }

  /** Word splitting of a trimmed, non-empty text yields non-empty words free
      of whitespace. */
  lemma {:induction false} SplitWordsOfTrimmed(t: string)
    requires |t| > 0 && IsTrimmed(t)
    ensures forall w :: w in SplitRuns(t, false) ==> |w| > 0 && NoWs(w)
    decreases |t|
  {
    var q := FirstRunStart(t, 0, false);
    if q < |t| {
      var e := RunEnd(t, q);
      assert !RunStart(t, |t| - 1, false);
      assert e < |t|;
      assert !IsWs(t[e..][0]);
      assert t[e..][|t[e..]| - 1] == t[|t| - 1];
      SplitWordsOfTrimmed(t[e..]);
      assert !RunStart(t, 0, false);
      forall j | 0 <= j < q ensures !IsWs(t[..q][j]) {
        assert !RunStart(t, j, false);
      }
    } else {
      forall j | 0 <= j < |t| ensures !IsWs(t[j]) {
        assert !RunStart(t, j, false);
      }
    }
  }

  /** Round trip: splitting words joined by single spaces gives the words
      back, provided each is non-empty and free of whitespace. */
  lemma {:induction false} SplitJoinedWords(ws: seq<string>)
    requires |ws| > 0
    requires forall i :: 0 <= i < |ws| ==> |ws[i]| > 0 && NoWs(ws[i])
    ensures SplitRuns(Join(ws, " "), false) == ws
  {
    var t := Join(ws, " ");
    var w := ws[0];
    if |ws| == 1 {
      assert t == w;
      assert forall j :: 0 <= j < |t| ==> !RunStart(t, j, false);
    } else {
      var rest := Join(ws[1..], " ");
      assert t == w + " " + rest;
      SplitJoinedWords(ws[1..]);
      JoinStartsWithFirst(ws[1..], " ");
      assert ws[1] == ws[1..][0];
      SplitAtSingleSpace(w, rest);
      assert ws == [w] + ws[1..];
    }
  }

  /** A word, one space and a text starting with non-whitespace split into
      the word and the pieces of that text. */
  lemma SplitAtSingleSpace(w: string, rest: string)
    requires |w| > 0 && NoWs(w) && |rest| > 0 && !IsWs(rest[0])
    ensures SplitRuns(w + " " + rest, false) == [w] + SplitRuns(rest, false)
  {
    var t := w + " " + rest;
    SpaceAfterWord(w, rest);
    assert t[..|w|] == w;
    assert t[|w| + 1..] == rest;
  }

  lemma SpaceAfterWord(w: string, rest: string)
    requires |w| > 0 && NoWs(w) && |rest| > 0 && !IsWs(rest[0])
    ensures FirstRunStart(w + " " + rest, 0, false) == |w|
    ensures RunEnd(w + " " + rest, |w|) == |w| + 1
  {
    var t := w + " " + rest;
    assert RunStart(t, |w|, false);
    forall j | 0 <= j < |w| ensures !RunStart(t, j, false) {
      assert t[j] == w[j];
    }
    assert t[|w| + 1] == rest[0];
    assert RunEnd(t, |w| + 1) == |w| + 1;
  }

  lemma {:induction false} JoinStartsWithFirst(ss: seq<string>, sep: string)
    requires |ss| > 0 && |ss[0]| > 0
    ensures |Join(ss, sep)| > 0 && Join(ss, sep)[0] == ss[0][0]
  {
  }

  // ---------------------------------------------------------------------------
  // Number to decimal text, as a template literal `${n}` prints it
  // ---------------------------------------------------------------------------

  function DigitChar(d: nat): (c: char)
    requires d < 10
    ensures '0' <= c <= '9'
  {
    ('0' as int + d) as char
  }

  function DigitValue(c: char): nat {
    if '0' <= c <= '9' then c as int - '0' as int else 0
  }

  /** The shortest decimal representation of `n`. */
  function Decimal(n: nat): (r: string)
    ensures |r| > 0
    ensures forall i :: 0 <= i < |r| ==> '0' <= r[i] <= '9'
    ensures n > 0 ==> r[0] != '0'
  {
    if n < 10 then [DigitChar(n)] else Decimal(n / 10) + [DigitChar(n % 10)]
  }

  /** Reads a string of decimal digits back as a number. */
  function ParseDecimal(s: string): nat {
    if |s| == 0 then 0 else ParseDecimal(s[..|s| - 1]) * 10 + DigitValue(s[|s| - 1])
  }

  lemma {:induction false} DecimalRoundTrip(n: nat)
    ensures ParseDecimal(Decimal(n)) == n
  {
    if n >= 10 {
      DecimalRoundTrip(n / 10);
      var s := Decimal(n);
      assert s[..|s| - 1] == Decimal(n / 10);
      assert DigitValue(s[|s| - 1]) == n % 10;
    }
  }
}

=== FILE: truncate.dfy ===
/**
 * The preview truncator `truncateText`: a text of at most `maxWords` words is
 * returned untouched, a longer one is cut to its first `maxWords` words,
 * joined by single spaces, with "..." appended.
 */
module Truncate {
  import opened Strings

  /** The word limit the generator and the upload path use. */
  const PreviewWords: int := 200

  /** `text.trim().split(/\s+/)`. A blank text has one word, the empty one. */
  function Words(text: string): (r: seq<string>)
    ensures |r| >= 1
    ensures Trim(text) == [] ==> r == [""]
  {
    SplitRuns(Trim(text), false)
  }

  /** The end index `Array.prototype.slice(0, end)` uses on an array of
      length `len`: a negative `end` counts from the back, and the result is
      clamped to `[0, len]`. */
  function SliceEnd(len: nat, end: int): (k: nat)
    ensures k <= len
    ensures 0 <= end <= len ==> k == end
    ensures end < 0 && len + end >= 0 ==> k == len + end
    ensures end > len ==> k == len
    ensures len + end < 0 ==> k == 0
    ensures k == 0 || k == len || k == end || k == len + end
  {
    if end < 0 then (if len + end < 0 then 0 else len + end)
    else if end > len then len
    else end
  }

  /** `truncateText(text, maxWords)`. */
  function TruncateText(text: string, maxWords: int): (r: string)
    ensures |Words(text)| <= maxWords ==> r == text
    ensures |Words(text)| > maxWords ==> |r| >= 3 && r[|r| - 3..] == "..."
  {
    var words := Words(text);
    if |words| <= maxWords then text
    else
      var truncated := Join(words[..SliceEnd(|words|, maxWords)], " ");
      truncated + "..."
  }

  /** Appending "..." to a word keeps it a word. */
  lemma EllipsisWord(w: string)
    requires NoWs(w)
    ensures NoWs(w + "...") && |w + "..."| > 0
  {
    assert forall i :: |w| <= i < |w| + 3 ==> (w + "...")[i] == '.';
  }

  /** The words of a text that has more than one word (or any non-blank
      text) are non-empty and free of whitespace. */
  lemma WordsAreSolid(text: string)
    requires Trim(text) != []
    ensures forall w :: w in Words(text) ==> |w| > 0 && NoWs(w)
  {
    SplitWordsOfTrimmed(Trim(text));
  }

  /** When `text` has more than one word, its trimmed form is not blank. */
  lemma ManyWordsNotBlank(text: string)
    requires |Words(text)| > 1
    ensures Trim(text) != []
  {
    assert FirstRunStart([], 0, false) == 0;
  }

  /** The number of words `words.slice(0, maxWords)` keeps. */
  function Kept(text: string, maxWords: int): (k: nat)
    ensures k <= |Words(text)|
  {
    SliceEnd(|Words(text)|, maxWords)
  }

  /** A text over the limit becomes the words `w1 … w(k-1) wk...`: the first
      `k` words it keeps, the last one carrying the ellipsis, separated by
      single spaces; the result is already trimmed. `k` is `maxWords` for a
      positive limit and counts from the back for a negative one. */
  lemma TruncatedWords(text: string, maxWords: int)
    requires |Words(text)| > maxWords && Kept(text, maxWords) >= 1
    ensures var ws, k := Words(text), Kept(text, maxWords);
      TruncateText(text, maxWords) == Join(ws[..k - 1] + [ws[k - 1] + "..."], " ")
    ensures var ws, k := Words(text), Kept(text, maxWords);
      Words(TruncateText(text, maxWords)) == ws[..k - 1] + [ws[k - 1] + "..."]
  {
    var ws, k := Words(text), Kept(text, maxWords);
    var vs := ws[..k - 1] + [ws[k - 1] + "..."];
    var r := TruncateText(text, maxWords);
    TruncatedJoin(ws, k);
    assert r == Join(vs, " ");
    ManyWordsNotBlank(text);
    WordsAreSolid(text);
    EllipsisList(ws, k);
    SplitJoinedWords(vs);
    JoinStartsWithFirst(vs, " ");
    assert IsTrimmed(r);
    TrimOfTrimmed(r);
  }

  /** A negative limit drops that many words from the end instead. */
  lemma NegativeLimitDropsFromEnd(text: string, maxWords: int)
    requires maxWords < 0 && |Words(text)| + maxWords >= 1
    ensures |Words(TruncateText(text, maxWords))| == |Words(text)| + maxWords
  {
    TruncatedWords(text, maxWords);
  }

  lemma TruncatedJoin(ws: seq<string>, n: int)
    requires 1 <= n <= |ws|
    ensures Join(ws[..n], " ") + "..." == Join(ws[..n - 1] + [ws[n - 1] + "..."], " ")
  {
    var pre := ws[..n];
    JoinExtendLast(pre, " ", "...");
    assert pre[..n - 1] == ws[..n - 1];
  }

  lemma EllipsisList(ws: seq<string>, n: int)
    requires 1 <= n <= |ws|
    requires forall w :: w in ws ==> |w| > 0 && NoWs(w)
    ensures var vs := ws[..n - 1] + [ws[n - 1] + "..."];
      forall i :: 0 <= i < |vs| ==> |vs[i]| > 0 && NoWs(vs[i])
  {
    var vs := ws[..n - 1] + [ws[n - 1] + "..."];
    assert ws[n - 1] in ws;
    EllipsisWord(ws[n - 1]);
    forall i | 0 <= i < |vs| ensures |vs[i]| > 0 && NoWs(vs[i]) {
      if i < n - 1 {
        assert vs[i] == ws[i] && ws[i] in ws;
      }
    }
  }

  /** A limit of zero always gives just the ellipsis. */
  lemma TruncateToNothing(text: string)
    ensures TruncateText(text, 0) == "..."
  {
  }

  /** With a non-negative limit, a truncated text is not truncated again:
      applying the truncator twice is the same as applying it once. */
  lemma TruncateIdempotent(text: string, maxWords: int)
    requires maxWords >= 0
    ensures TruncateText(TruncateText(text, maxWords), maxWords) == TruncateText(text, maxWords)
  {
    if |Words(text)| > maxWords {
      if maxWords == 0 {
        var d := "...";
        assert Trim(d) == d by { TrimOfTrimmed(d); }
        SplitJoinedWords([d]);
        assert Words(d) == [d];
      } else {
        TruncatedWords(text, maxWords);
      }
    }
  }

  /** With a positive limit, the result never has more than `maxWords`
      words. */
  lemma TruncateWordBound(text: string, maxWords: int)
    requires maxWords >= 1
    ensures |Words(TruncateText(text, maxWords))| <= maxWords
  {
    if |Words(text)| > maxWords {
      TruncatedWords(text, maxWords);
    }
  }
}
